=== FILE: README.md ===
# Snyk scan pipeline — a Dafny model

This project models the decision logic of a small service. The service keeps a
registry of Git repositories and clones each one into a local checkout tree.
It runs the Snyk CLI on each checkout, normalises the JSON the CLI prints into
an executive summary, stores the report, and sends one Discord notification per
report.

Every external effect is an input to the model, never an action it performs:

- shell commands (git, npm, dotnet, snyk) become outcome values;
- the filesystem becomes a set of existing paths;
- the MongoDB collections become an ordered list of records plus an "is the
  store up" flag;
- the JSON parser, the clock and the process environment become parameters.

What each operation does to the outside world is returned as data: the git
commands issued, the restore commands run, the scanner launch, the report
stored, the notification sent, and the registry afterwards. Ordering and
short-circuit properties are stated over that returned data.

One module per source file:

| module | models |
|---|---|
| `SnykTypes`, `RepositoryTypes` | the payload, vulnerability, summary, repository and scan-result records |
| `ReportModel` | the report helper: normalisation, flattening, filtering, the executive summary |
| `SnykSchema` | the stored report schema as a cast that succeeds or fails validation |
| `RepositorySchema` | the repository schema and the registry queries (find, insert, delete, lastScan update, enabled list) |
| `GitService` | the checkout tree: base directory, path, clone, update, delete |
| `ReportService` | save-then-notify, the document mapping, and the alert tier and colour |
| `SnykService` | the restore decision, the scan gate chain, the exit-code handling, the fleet scan |
| `ScanController` | the status-code chains of the manual scan, scan-all, add and delete handlers |
| `ScanJob` | the scheduler's start/stop state machine and its callback |

Two helper modules are not tied to a source file:

- `Wrappers` provides `Option` and `Result`.
- `Strings` provides JavaScript truthiness, `||` on optional strings, and
  ECMAScript `trim`.

Decisions where the model had to choose a reading:

- **Scan-time update failure.** One could read the update of a repository's
  `lastScan` as a best-effort bookkeeping step. In the code, though, that
  update sits inside the same `try` as the rest of the scan, so its failure
  turns an already stored report into a failed scan result. The model follows
  the code: `LastScanNotRecorded` is a failure that comes after `Stored`.
- **Query trimming.** The store's query casting runs registry queries by name
  through the schema's `trim` setter. `FindByName` therefore looks up
  `Trim(name)`. Checkout paths use the name exactly as given, untrimmed.
- **Required strings.** A `required` string field rejects the empty string, so
  the schemas require non-empty strings.
- **Typed severities.** A raw vulnerability keeps its severity as the label
  string the CLI printed. The stored schema only accepts the four typed labels.
  So a report with any other label fails to save. For that reason, every saved
  report has a total equal to the sum of its four counts.
- **Next execution.** `getNextExecution` returns the current time while the job
  runs, not the schedule's next firing. `NextExecution` models exactly that.

## Model

| member | source | states |
|---|---|---|
| Strings.Trim | src/models/repository.model.ts:20 | Trimming removes exactly a whitespace prefix and suffix. The result has no leading or trailing whitespace. |
| Strings.ContentStart | src/models/repository.model.ts:20 | Returns the end of the run of spaces starting at the given index: everything before it is a space, and it is the end of the text or a non-space. |
| Strings.ContentEnd | src/models/repository.model.ts:20 | Returns the start of the run of spaces ending at the given index, never below the lower bound: everything from it is a space, and it is the bound or follows a non-space. |
| Strings.TrimIdempotent | src/models/repository.model.ts:20 | Trimming a stored (already trimmed) value leaves it unchanged. |
| SnykTypes.ParseSeverity | src/types/snyk.types.ts:5 | A label parses iff it is one of low, medium, high, critical. Parsing round-trips with `Label`, and the parse is unique. |
| RepositoryTypes.Failed | src/types/repository.types.ts:9-16 | A failed scan result has success false, an error, and no report id. |
| RepositoryTypes.Succeeded | src/types/repository.types.ts:9-16 | A successful scan result has success true, a report id, and no error. |
| ReportModel.AllVulnerabilities | src/models/report.model.ts:49-51 | An entry is in the flattened list iff it is in some project's list, with a missing list counting as empty. The result is empty iff every project's list is. `GetAllVulnerabilities` is this flattening applied to `Projects(payload)`. |
| ReportModel.AllVulnerabilitiesAppend | src/models/report.model.ts:49-51 | Flattening distributes over concatenation of project lists, so project order is kept. |
| ReportModel.Projects | src/models/report.model.ts:26-34 | An array payload gives exactly its projects, and a lone object gives a one-element list holding it. `NormalisationIdempotent` shows that normalising first changes no part of the report. |
| ReportModel.NormalisationIdempotent | src/models/report.model.ts:26-34 | Passing the normalised project list back in as an array gives the same projects, summary, flattened list and dependency total as the original payload. |
| ReportModel.OfSeverity | src/models/report.model.ts:56-60 | The filter keeps exactly the entries with the given severity label, and is no longer than its input. |
| ReportModel.OfSeverityAppend | src/models/report.model.ts:56-60 | Filtering distributes over concatenation, so the original order is preserved. |
| ReportModel.IssuesBySeverity | src/models/report.model.ts:56-60 | `getIssuesBySeverity` returns exactly the flattened entries whose severity is the requested one. |
| ReportModel.ProjectNames | src/models/report.model.ts:70 | The name list has one entry per project, in project order. |
| ReportModel.Summarize | src/models/report.model.ts:65-79 | The summary contains: the project count and names; the total equal to the flattened length; isClean iff the total is 0; and each tier count equal to that tier's filtered length. The sum of the counts is at most the total, with equality iff every severity is one of the four labels. |
| ReportModel.TypedCountBound | src/models/report.model.ts:72-75 | The number of entries with a typed severity is at most the length. It equals the length iff every entry is typed. |
| ReportModel.TypedCountStep | src/models/report.model.ts:72-75 | The first entry adds one to the four per-severity counts iff its tag is one of the four labels. |
| SnykService.LaunchScanner | src/services/snyk.service.ts:102-171 | With a token, the effects begin with the update and restore effects followed by the scanner launched in the checkout. A gate failure before the lastScan update leaves no report effect. Success carries the stored report's id. |
| ReportModel.SumFromIsTotal | src/models/report.model.ts:39-44 | The left-to-right `reduce` from an initial value adds that value to the sum of the projects' dependency counts, a missing count being 0. |
| ReportModel.GetTotalDependencies | src/models/report.model.ts:39-44 | `getTotalDependencies`, a reduce from 0, equals the sum of the normalised projects' dependency counts. |
| ReportModel.TotalDependenciesAppend | src/models/report.model.ts:39-44 | The dependency total is additive over concatenated project lists. |
| ReportModel.TotalDependenciesBound | src/models/report.model.ts:39-44 | With non-negative counts, the total is at least any one project's count. |
| ReportModel.TotalDependenciesNonNegative | src/models/report.model.ts:39-44 | With non-negative counts, the dependency total is non-negative. |
| ReportModel.ObjectArrayEquivalence | src/models/report.model.ts:26-34 | A single object payload and a one-element array give the same summary, flattened list and dependency total. |
| ReportModel.IssuesOfConcatenation | src/models/report.model.ts:56-60 | One tier's findings in two concatenated project lists are the first list's findings followed by the second's. |
| ReportModel.ProjectNamesOfConcatenation | src/models/report.model.ts:70 | The names of two concatenated project lists are the first list's names followed by the second's. |
| ReportModel.TotalOfConcatenation | src/models/report.model.ts:49-51 | Two concatenated project lists have as many findings as the two lists together. |
| ReportModel.CountOfConcatenation | src/models/report.model.ts:56-60 | Two concatenated project lists have, in each tier, as many findings as the two lists together. |
| ReportModel.SummaryOfConcatenation | src/models/report.model.ts:65-79 | The summary of two concatenated project lists has the sum of the two counts and the concatenated names. It is clean iff both parts are. |
| SnykSchema.CastVulnerability | src/models/snyk.model.ts:6-21 | A sub-document validates iff snykId, title, packageName and version are non-empty and severity is one of the four labels. `fixedIn` and `from` default to empty lists. |
| SnykSchema.CastVulnerabilities | src/models/snyk.model.ts:49 | A list validates iff every entry does. The cast is elementwise and length-preserving. |
| SnykSchema.CastReport | src/models/snyk.model.ts:24-58 | A report validates iff projectNames and isClean are present and every vulnerability validates. Each missing summary counter defaults to 0 and each present one is kept, and the raw payload is kept verbatim. |
| RepositorySchema.CastRepository | src/models/repository.model.ts:14-48 | A record validates iff name and url are non-empty after trimming. Strings are stored trimmed, branch defaults to "main", enabled to true and cloned to false, and lastScan starts unset. |
| RepositorySchema.Find | src/models/repository.model.ts:16-21 | The lookup finds a record iff one has that name, and what it returns is a registry record with that name. |
| RepositorySchema.FindByName | src/controllers/scan.controller.ts:22 | `findOne({ name })` matches the trimmed name: it finds a record iff one is named `Trim(name)`, and returns such a registry record. |
| RepositorySchema.Insert | src/models/repository.model.ts:16-21 | A save succeeds iff the document validates, its trimmed name is not taken, and the store is up. The record is then appended. |
| RepositorySchema.InsertKeepsUnique | src/models/repository.model.ts:16-21 | Saving a valid document whose trimmed name is free succeeds while the store is up. Names stay unique, and the new record is the one found under the requested name. |
| RepositorySchema.RemoveFirst | src/controllers/scan.controller.ts:259-261 | Removal returns exactly the record the lookup finds. It keeps every record with another name and adds none. |
| RepositorySchema.DeleteByName | src/controllers/scan.controller.ts:259-261 | `findOneAndDelete` returns the record found under the trimmed name. A name that is not found changes nothing. |
| RepositorySchema.DeleteKeepsUnique | src/controllers/scan.controller.ts:259-261 | After deletion, names are still unique and the deleted name is no longer found. |
| RepositorySchema.RecordLastScan | src/services/snyk.service.ts:158-162 | Only the record with the given name gets the new lastScan. Every other record is unchanged, and a missing name changes nothing (no upsert). |
| RepositorySchema.Enabled | src/services/snyk.service.ts:187 | A record is selected iff it is in the registry and enabled. |
| RepositorySchema.EnabledAppend | src/services/snyk.service.ts:187 | Selection distributes over concatenation, so collection order is kept. |
| GitService.RepositoryPath | src/services/git.service.ts:32-34 | A checkout path is the base directory extended by the name. |
| GitService.RepositoryPathInjective | src/services/git.service.ts:32-34 | Distinct names have distinct checkout paths. |
| GitService.ClonedCheckoutExists | src/services/git.service.ts:39-43 | `isRepositoryCloned` tests for the checkout's `.git` entry; in a real filesystem a cloned name's checkout directory and the base directory therefore exist. |
| GitService.InitializeReposDirectory | src/services/git.service.ts:17-27 | Initialisation succeeds iff the base directory exists or can be created. An existing directory is left alone; a missing one is created with its ancestors and nothing else; a creation failure is rethrown. |
| GitService.InitializeIdempotent | src/services/git.service.ts:17-27 | Initialising twice is initialising once. |
| GitService.InitializeKeepsShape | src/services/git.service.ts:17-27 | Initialisation keeps the tree prefix-closed and does not change whether a name is cloned. |
| GitService.UpdateRepository | src/services/git.service.ts:87-119 | The update never fails. On a missing checkout it issues nothing. Otherwise it issues a prefix of fetch, checkout, pull, stopping at the first failing command. |
| GitService.CloneRepository | src/services/git.service.ts:48-82 | If the base directory cannot be created, the clone fails with no commands. An already cloned name is updated and returns its path. Any other name issues exactly one `git clone --branch` into its checkout and succeeds iff that command completes. Success returns the checkout path and leaves the name cloned; every failure surfaces as "could not clone". |
| GitService.CloneOfClonedUpdates | src/services/git.service.ts:58-62 | Cloning an already cloned name issues no clone. It runs the update, starting with `git fetch` in the checkout, and returns the same path. |
| GitService.CloneKeepsShape | src/services/git.service.ts:48-82 | A clone keeps the tree prefix-closed. |
| GitService.DeleteRepository | src/services/git.service.ts:124-144 | Deletion succeeds iff the checkout is missing or the removal works. A missing checkout is a no-op. A removal deletes the checkout and everything beneath it and nothing else, so the path no longer exists; a removal failure is reported. |
| GitService.DeleteIdempotent | src/services/git.service.ts:124-144 | Deleting twice is deleting once. |
| GitService.DeleteKeepsShape | src/services/git.service.ts:124-144 | A deletion keeps the tree prefix-closed and leaves the name not cloned. |
| ReportService.SaveToDatabase | src/services/report.service.ts:24-57 | The save succeeds iff the store is up and every flattened entry is storable. The summary is copied unchanged. Stored entries match the flattened list one for one: packageName is moduleName when present, otherwise packageName, and the other fields are copied. |
| ReportService.AlertTier | src/services/report.service.ts:64-76 | The tier is critical iff there are critical findings; otherwise high iff there are high findings; otherwise medium iff there are medium findings; otherwise low. |
| ReportService.BuildAlert | src/services/report.service.ts:78-109 | The embed has the tier's colour and exactly 7 fields in this order: projects, total, spacer, critical, high, medium, low. It carries the summary's values, and every field but the first is inline. |
| ReportService.ColorPriority | src/services/report.service.ts:60-76 | The colour is 15548997 iff critical>0. Otherwise it is 15105570 iff high>0, otherwise 16776960 iff medium>0, otherwise 3447003. |
| ReportService.TierIsHighestPresent | src/services/report.service.ts:64-76 | No tier above the chosen one has findings. A tier above low is chosen only for its own findings. |
| ReportService.Notify | src/services/report.service.ts:13-19 | A clean summary sends the plain message naming the projects. Any other summary sends the embed alert. |
| ReportService.ProcessSnykPayload | src/services/report.service.ts:6-22 | The report is stored before the one notification is sent. A failed save sends nothing. Saving succeeds iff the store is up and every entry is storable. |
| ReportService.SavedReportCountsAddUp | src/services/report.service.ts:6-22 | In a saved report, the total is the number of stored entries and also the sum of the four counts, and the report is clean iff the total is 0. |
| ReportService.LowAlertHasLowFindings | src/services/report.service.ts:59-76 | For a summary that meets the saved-report invariant, a low-tier alert is sent only when there are low findings. |
| SnykService.RestoreDependencies | src/services/snyk.service.ts:16-64 | `npm install` runs iff package.json exists. `dotnet restore` runs iff a .sln or .csproj exists and npm did not fail first. At most the two run, in that order, and restoring never fails. |
| SnykService.ScannerEnvironment | src/services/snyk.service.ts:107-114 | The scanner environment has exactly the keys SNYK_TOKEN, PATH, HOME, APPDATA and LOCALAPPDATA. SNYK_TOKEN is the token. The others are copied from the process environment, an unset one reading as the empty string, and HOME falls back to USERPROFILE when unset or empty. |
| SnykService.ScannerStdout | src/services/snyk.service.ts:116-137 | Exit 0 uses stdout. A failed exit with non-empty stdout counts as success and uses that stdout. A failed exit with empty or absent stdout is a failure. |
| SnykService.ParseOutput | src/services/snyk.service.ts:141-146 | Empty output never parses. Other output parses as the parser says. |
| SnykService.Rejection | src/services/snyk.service.ts:148-151 | The CLI rejected the run iff the payload is an object with ok false and a non-empty error. |
| SnykService.StageOrderAppend | src/services/snyk.service.ts:79-171 | Concatenating stage-ordered effect lists, each later than the one before, keeps them stage-ordered. |
| SnykService.FinishScan | src/services/snyk.service.ts:153-171 | After processing, the scan fails with "database save failed" iff the save failed. Only a saved report gets its lastScan recorded, and only then does the scan succeed. A saved report's notification is among the effects. A failed save adds no effect at all. |
| SnykService.AfterLaunch | src/services/snyk.service.ts:116-171 | After the scanner is launched, the effects so far stay a prefix of the scan's effects and stage order is kept. Success carries the stored report's id, and the registry changes only by a lastScan update on success. A scan stopped by a gate (no output, unparseable output, a rejection, a failed save) adds no effect after the launch. A failed lastScan update comes after the report was stored. |
| SnykService.ScanRepository | src/services/snyk.service.ts:69-180 | The scan never throws, and its result is well formed and names the repository. Effects come in stage order (update, restore, scanner, store, notify, lastScan). An uncloned repository fails with no effects. With a checkout and a token, the effects begin with exactly the update and restore commands, followed by the scanner launched in the checkout with the scanner environment. A success carries the stored report's id. The registry changes only by a lastScan update on success. A scan that fails at any gate before the lastScan update has no report effect, so nothing is stored or sent. A scan that fails only at the lastScan update has stored its report. |
| SnykService.MissingTokenStopsBeforeScanner | src/services/snyk.service.ts:91-98 | Without a token, the scan fails after update and restore, and the scanner never runs. |
| SnykService.ReportedScanOutcome | src/services/snyk.service.ts:116-171 | Once the scanner output (from exit 0 or from a failed exit with output) parses to a payload that is not a rejection, the scan succeeds iff the store is up, every entry is storable and lastScan is recorded. Success names the stored report and records lastScan. Whenever the report is saved, the notification sent is the one chosen for the payload's executive summary. |
| SnykService.IssuesFoundIsSuccess | src/services/snyk.service.ts:124-133 | A non-zero exit with a valid, non-rejecting payload on stdout is a successful scan once stored and recorded. |
| SnykService.EmptyOutputIsFailure | src/services/snyk.service.ts:133-136 | A failed exit with empty or absent stdout is a failure: nothing is stored or sent, and the registry is unchanged. |
| SnykService.StoredOnlyAfterEveryGate | src/services/snyk.service.ts:85-171 | A report is stored only after every earlier gate passed. The result is then a success unless the lastScan update failed. No notification goes out unless the report was stored first. |
| SnykService.SettledResult | src/services/snyk.service.ts:204-214 | A fulfilled task gives its own result. A rejected task gives a failed result naming the repository ("Unknown" for an empty name), carrying the reason when there is one. |
| SnykService.ScanAllRepositories | src/services/snyk.service.ts:185-227 | A failed registry read is an error. Otherwise there is one result per enabled repository, in registry order, which is empty when none is enabled. |
| SnykService.ScanFleet | src/services/snyk.service.ts:198-202 | The fleet scan fails iff the registry cannot be read. Otherwise it gives one result per enabled repository, in registry order, each naming its repository. |
| SnykService.FleetResultsPerRepository | src/services/snyk.service.ts:198-215 | Each fleet result belongs to the enabled repository at the same position, is well formed, and equals that repository's own scan. |
| SnykService.RejectedTasksReported | src/services/snyk.service.ts:204-214 | A rejected task is reported as a failed result carrying its repository's name, not dropped. |
| ScanController.ScanManual | src/controllers/scan.controller.ts:11-72 | A missing name gives 400, an unknown name 404, and a disabled or uncloned repository 400. Only then does it scan, with 200 iff the scan succeeded and 500 otherwise. The result and the registry afterwards are exactly those of scanning the stored record's name and branch. |
| ScanController.ManualScanRefusesInactive | src/controllers/scan.controller.ts:33-45 | A disabled or uncloned repository is refused with 400 and not scanned. |
| ScanController.SuccessCount | src/controllers/scan.controller.ts:82 | The count is at most the number of results. It equals the number of results iff all succeeded, and is 0 iff none did. |
| ScanController.SuccessCountIsFilterLength | src/controllers/scan.controller.ts:82 | The count is the length of the list of successful results. |
| ScanController.ScanAll | src/controllers/scan.controller.ts:78-96 | Gives 500 iff the registry cannot be read. Otherwise it gives 200 with one result per enabled repository, each equal to that repository's own scan, and the count of successful results among them. |
| ScanController.Cleanup | src/controllers/scan.controller.ts:184-191 | Best-effort removal: the checkout is gone when removal works, and a failed removal changes nothing. No path outside the checkout's subtree is removed. |
| ScanController.AddRepository | src/controllers/scan.controller.ts:123-198 | A missing name or url gives 400. An existing name gives 409 with no clone. The answer is 201 iff the query works, the name is free, the clone succeeds and the record saves, with the branch defaulting to "main" when missing or empty. Then: the record is appended with trimmed fields, enabled defaulting to true and cloned true, the checkout exists, and a background scan is started. Any later failure gives 500 with the registry unchanged and the checkout removed when removal works. On 500 the workspace holds nothing beyond the original paths and the clone's, and no path outside the checkout's subtree is lost. |
| ScanController.AddKeepsRegistryUnique | src/controllers/scan.controller.ts:134-156 | Adds keep registry names unique. After a 201, the new record is the one found under the requested name. |
| ScanController.AddTwiceConflicts | src/controllers/scan.controller.ts:134-140 | Adding a registered name again is a 409 that changes nothing. |
| ScanController.RemoveRepository | src/controllers/scan.controller.ts:248-283 | An empty name gives 400, and an unknown name 404 with nothing changed. Otherwise the record is deleted and then the checkout, giving 200 iff the checkout is gone or removable. A failed removal gives 500 with the record already deleted and the workspace unchanged. On 200 only the checkout's subtree leaves the workspace, and nothing is added. |
| ScanController.RemoveThenNotFound | src/controllers/scan.controller.ts:259-275 | After a successful delete, the name is neither registered nor cloned, and deleting it again gives 404. |
| ScanJob.Start | src/jobs/scan.job.ts:12-47 | Starting a running job is a no-op, and an invalid expression leaves it stopped. Otherwise the job holds a task for the expression in the Buenos Aires time zone. |
| ScanJob.StartDefault | src/jobs/scan.job.ts:12 | Starting without an argument is starting with "0 2 * * *": a stopped job with that expression valid then holds the daily 02:00 task. |
| ScanJob.Stop | src/jobs/scan.job.ts:52-58 | Stopping leaves the job not running, and stopping a stopped job changes nothing. |
| ScanJob.NextExecutionFollowsLifecycle | src/jobs/scan.job.ts:12-66 | The next execution is absent after a stop. After a start it is present iff the job was running or the expression is valid. A valid start from stopped makes it the current clock reading. `IsRunning` reads the running flag this lemma tracks. |
| ScanJob.StartIdempotent | src/jobs/scan.job.ts:13-16 | Starting a running job again keeps the first task. |
| ScanJob.StopAfterStart | src/jobs/scan.job.ts:52-73 | Stop is idempotent, and a start followed by a stop returns to the stopped job. |
| ScanJob.ScheduledRun | src/jobs/scan.job.ts:26-37 | The callback catches every fleet-scan error. Otherwise it logs the success count out of all results. |
| ScanJob.ScheduledRunCoversFleet | src/jobs/scan.job.ts:26-37 | A scheduled run over a readable registry completes with one result per enabled repository. |

## Left out

- I/O is not executed. Subprocesses, the filesystem, MongoDB, the Discord webhook and the JSON parser are inputs or outcome values.
- `maxBuffer` limits, stderr, and log output are not modelled.
- Wall-clock values are left out: `scanDate`, `scannedAt`, the timestamps the store adds, the embed timestamp, and the value written to `lastScan` (a `Timestamp` parameter).
- Discord delivery is not modelled; only which notification is sent. The alert's title, icon, description and footer texts, the decimal formatting of counts, and the webhook configuration are left out.
- Exact error and log texts (in Spanish) are left out. Errors are tags: `ScanError`, `GitError`, `SaveError`, `FleetError`.
- `Promise.allSettled` concurrency is left out. The fleet scan is an order-preserving map, and each repository's scan sees the registry as it was before the fleet run. The lastScan updates of the individual scans are not merged back into one registry.
- The background scan started by `addRepository` is returned as a `BackgroundScan` value and not run.
- `getRepositoryInfo`, `checkSnykCli`, the `listRepositories` and `updateRepository` handlers, routing, Swagger, the database connection and the report controller are not part of this model.
- What `git clone`, `git pull`, `npm install` and `dotnet restore` write inside a checkout is not modelled. A clone adds the checkout directory and its `.git` entry; the other commands leave the set of paths as it is.
- Path normalisation of names with separators or `..` is left out: a name is one path segment.
- A listing error in `restoreDependencies` is not modelled separately. It is caught like a failing command, and a cloned checkout always exists.
- JSON that parses to something other than a CLI payload is modelled as a parse failure. In the code, `null` fails the scan with a different message. A scalar such as `42`, `"x"` or `true` has no `ok` field, so it is not rejected. It then becomes one project with no vulnerabilities and is saved as a clean report, so the scan succeeds.
- The `cvssScore`, `publicationTime`, `semver`, `uniqueCount`, `policy`, `org` and `path` fields are left out; no logic reads them.
- The unquoted shell interpolation of branch and url in the clone command is left out.
- ScanJob.NextExecution: returns the clock reading passed in, as the code does. It is not the schedule's next firing time, which needs cron semantics.
- ScanJob.Start: whether an expression is a valid schedule is an input predicate; cron syntax is not modelled.

=== FILE: git_service.dfy ===
/**
  Checkout management over an abstract filesystem. The filesystem is the set
  of paths that exist; git commands are recorded, not run, and each command's
  outcome is an input. A checkout is "cloned" iff its `.git` entry exists.
*/
module GitService {
  import opened Wrappers

  /** A filesystem path as its list of segments. */
  type Path = seq<string>

  /** A non-empty path, such as the checkout root. */
  type Root = p: Path | |p| > 0 witness ["repositories"]

  /**
    The checkout root (`<cwd>/repositories` in the service; the working
    directory is not modelled, so any non-empty path may serve) and the set of
    paths that currently exist.
  */
  datatype Workspace = Workspace(base: Root, paths: set<Path>)

  /** `p` is `q` or lies beneath it. */
  predicate Under(p: Path, q: Path) {
    |q| <= |p| && p[..|q|] == q
  }

  /** A real filesystem holds every ancestor of every existing path. */
  predicate PrefixClosed(paths: set<Path>) {
    forall p, i :: p in paths && 1 <= i < |p| ==> p[..i] in paths
  }

  /** `getRepositoryPath`: the checkout path of `name`, directly under the root. */
  function RepositoryPath(ws: Workspace, name: string): (p: Path)
    ensures |p| == |ws.base| + 1 && p[..|ws.base|] == ws.base && p[|ws.base|] == name
  {
    ws.base + [name]
  }

  /** Distinct names get distinct checkout paths. */
  lemma RepositoryPathInjective(ws: Workspace, a: string, b: string)
    requires RepositoryPath(ws, a) == RepositoryPath(ws, b)
    ensures a == b
  {
    assert RepositoryPath(ws, a)[|ws.base|] == a;
  }

  /** The version-control marker of a checkout. */
  function GitMarker(ws: Workspace, name: string): Path {
    RepositoryPath(ws, name) + [".git"]
  }

  /** `isRepositoryCloned`: the checkout's `.git` entry exists. */
  predicate IsCloned(ws: Workspace, name: string) {
    GitMarker(ws, name) in ws.paths
  }

  /** The non-empty prefixes of `p`, which `mkdir -p` creates. */
  function Ancestry(p: Path): (s: set<Path>)
    ensures forall q :: q in s <==> 1 <= |q| <= |p| && q == p[..|q|]
  {
    set i | 1 <= i <= |p| :: p[..i]
  }

  /** In a real filesystem a cloned checkout's directory exists, and so does the root above it. */
  lemma ClonedCheckoutExists(ws: Workspace, name: string)
    requires PrefixClosed(ws.paths) && IsCloned(ws, name)
    ensures RepositoryPath(ws, name) in ws.paths && ws.base in ws.paths
  {
    var marker := GitMarker(ws, name);
    assert marker[..|ws.base| + 1] == RepositoryPath(ws, name);
    assert marker[..|ws.base|] == ws.base;
  }

  /** Why a checkout operation failed. */
  datatype Cause = DirectoryNotCreated | GitCloneFailed(diagnostic: string)

  /** The errors checkout operations raise; a clone failure wraps its cause. */
  datatype GitError = CouldNotClone(cause: Cause) | CouldNotDelete

  /**
    `initializeReposDirectory`: creates the root (with its ancestors) only if
    it is missing; `mkdirOk` is whether the creation succeeds.
  */
  function InitializeReposDirectory(ws: Workspace, mkdirOk: bool): (r: Result<Workspace, Cause>)
    ensures r.Ok? <==> ws.base in ws.paths || mkdirOk
    ensures ws.base in ws.paths ==> r == Ok(ws)
    ensures ws.base !in ws.paths && !mkdirOk ==> r == Err(DirectoryNotCreated)
    ensures r.Ok? ==> r.value.base == ws.base && ws.base in r.value.paths && ws.paths <= r.value.paths
    ensures r.Ok? ==> forall p :: p in r.value.paths - ws.paths ==> |p| <= |ws.base| && p == ws.base[..|p|]
  {
    if ws.base in ws.paths then Ok(ws)
    else if mkdirOk then
      assert ws.base == ws.base[..|ws.base|];
      Ok(ws.(paths := ws.paths + Ancestry(ws.base)))
    else Err(DirectoryNotCreated)
  }

  /** Initialising twice is initialising once: the second call finds the root and changes nothing. */
  lemma InitializeIdempotent(ws: Workspace, first: bool, second: bool)
    requires InitializeReposDirectory(ws, first).Ok?
    ensures var w := InitializeReposDirectory(ws, first).value;
      InitializeReposDirectory(w, second) == Ok(w)
  {
  }

  /** Creating the root keeps the filesystem prefix-closed and does not create any checkout. */
  lemma InitializeKeepsShape(ws: Workspace, mkdirOk: bool, name: string)
    requires PrefixClosed(ws.paths)
    requires InitializeReposDirectory(ws, mkdirOk).Ok?
    ensures var w := InitializeReposDirectory(ws, mkdirOk).value;
      PrefixClosed(w.paths) && (IsCloned(w, name) <==> IsCloned(ws, name))
  {
    var w := InitializeReposDirectory(ws, mkdirOk).value;
    forall p, i | p in w.paths && 1 <= i < |p| ensures p[..i] in w.paths {
      if p !in ws.paths {
        assert p[..i] == ws.base[..i];
        assert ws.base[..i] in Ancestry(ws.base);
      }
    }
    assert |GitMarker(ws, name)| > |ws.base|;
  }

  /** The outcome of running one external command. */
  datatype CommandOutcome = Completed | Errored(diagnostic: string)

  /** The git commands the service issues, with their working directory or destination. */
  datatype GitCommand =
    | Clone(branch: string, url: string, dest: Path)
    | Fetch(dir: Path)
    | Checkout(dir: Path, branch: string)
    | Pull(dir: Path)

  /** The outcomes of `git fetch origin`, `git checkout <branch>` and `git pull`. */
  datatype UpdateOutcomes = UpdateOutcomes(fetch: CommandOutcome, checkout: CommandOutcome, pull: CommandOutcome)

  /** The update commands in the order they are issued. */
  function UpdateSequence(dir: Path, branch: string): seq<GitCommand> {
    [Fetch(dir), Checkout(dir, branch), Pull(dir)]
  }

  /** The outcome of the `i`-th update command. */
  function UpdateOutcome(o: UpdateOutcomes, i: nat): CommandOutcome
    requires i < 3
  {
    if i == 0 then o.fetch else if i == 1 then o.checkout else o.pull
  }

  /**
    `updateRepository`: the git commands it issues. It never fails: a missing
    checkout issues nothing, and the first failing command stops the sequence
    and is logged. The set of paths is left as it is.
  */
  function UpdateRepository(ws: Workspace, name: string, branch: string, o: UpdateOutcomes): (cmds: seq<GitCommand>)
    ensures !IsCloned(ws, name) ==> cmds == []
    ensures IsCloned(ws, name) ==>
      && 1 <= |cmds| <= 3
      && cmds == UpdateSequence(RepositoryPath(ws, name), branch)[..|cmds|]
      && (forall i :: 0 <= i < |cmds| - 1 ==> UpdateOutcome(o, i).Completed?)
      && (|cmds| < 3 ==> UpdateOutcome(o, |cmds| - 1).Errored?)
  {
    if !IsCloned(ws, name) then []
    else
      var all := UpdateSequence(RepositoryPath(ws, name), branch);
      if o.fetch.Errored? then all[..1]
      else if o.checkout.Errored? then all[..2]
      else all
  }

  /** The outcomes a clone depends on. */
  datatype CloneOutcomes = CloneOutcomes(mkdir: bool, clone: CommandOutcome, update: UpdateOutcomes)

  /** A clone attempt: its result, the filesystem afterwards, and the git commands issued. */
  datatype CloneRun = CloneRun(result: Result<Path, GitError>, ws: Workspace, commands: seq<GitCommand>)

  /**
    `cloneRepository`: initialise the root; an already cloned checkout is
    updated instead of cloned; otherwise `git clone --branch` creates it.
    Every failure is rethrown wrapped as "could not clone".
  */
  function CloneRepository(ws: Workspace, url: string, name: string, branch: string, o: CloneOutcomes): (run: CloneRun)
    ensures run.ws.base == ws.base
    ensures run.result.Ok? ==> run.result.value == RepositoryPath(ws, name) && IsCloned(run.ws, name)
    ensures run.result.Err? ==> run.result.error.CouldNotClone?
    ensures ws.paths <= run.ws.paths
    ensures IsCloned(ws, name) ==> Clone(branch, url, RepositoryPath(ws, name)) !in run.commands
    ensures !(ws.base in ws.paths || o.mkdir) ==>
      run == CloneRun(Err(CouldNotClone(DirectoryNotCreated)), ws, [])
    ensures (ws.base in ws.paths || o.mkdir) && IsCloned(ws, name) ==>
      && run.result == Ok(RepositoryPath(ws, name))
      && run.commands == UpdateRepository(ws, name, branch, o.update)
    ensures (ws.base in ws.paths || o.mkdir) && !IsCloned(ws, name) ==>
      && run.commands == [Clone(branch, url, RepositoryPath(ws, name))]
      && (run.result.Ok? <==> o.clone.Completed?)
      && (o.clone.Errored? ==> run.result == Err(CouldNotClone(GitCloneFailed(o.clone.diagnostic))))
  {
    match InitializeReposDirectory(ws, o.mkdir)
    case Err(cause) => CloneRun(Err(CouldNotClone(cause)), ws, [])
    case Ok(w) =>
      var dest := RepositoryPath(w, name);
      assert |GitMarker(ws, name)| > |ws.base|;
      if IsCloned(w, name) then
        assert UpdateRepository(w, name, branch, o.update) == UpdateRepository(ws, name, branch, o.update);
        CloneRun(Ok(dest), w, UpdateRepository(w, name, branch, o.update))
      else
        var cmds := [Clone(branch, url, dest)];
        match o.clone
        case Errored(d) => CloneRun(Err(CouldNotClone(GitCloneFailed(d))), w, cmds)
        case Completed =>
          CloneRun(Ok(dest), w.(paths := w.paths + {dest, dest + [".git"]}), cmds)
  }

  /**
    Cloning an already cloned name issues no clone: it runs the update, which
    starts with `git fetch` in the checkout, and returns the same path.
  */
  lemma CloneOfClonedUpdates(ws: Workspace, url: string, name: string, branch: string, o: CloneOutcomes)
    requires IsCloned(ws, name)
    ensures var run := CloneRepository(ws, url, name, branch, o);
      && (ws.base in ws.paths || o.mkdir ==> run.result == Ok(RepositoryPath(ws, name)))
      && (ws.base in ws.paths || o.mkdir ==> |run.commands| >= 1 && run.commands[0] == Fetch(RepositoryPath(ws, name)))
      && (forall c :: c in run.commands ==> !c.Clone?)
  {
    var run := CloneRepository(ws, url, name, branch, o);
    assert |GitMarker(ws, name)| > |ws.base|;
    if ws.base in ws.paths || o.mkdir {
      assert run.commands == UpdateRepository(ws, name, branch, o.update);
      assert run.commands == UpdateSequence(RepositoryPath(ws, name), branch)[..|run.commands|];
    }
    forall c | c in run.commands ensures !c.Clone? {
      var w := InitializeReposDirectory(ws, o.mkdir).value;
      assert run.commands == UpdateRepository(w, name, branch, o.update);
    }
  }

  /** A clone keeps the filesystem prefix-closed. */
  lemma CloneKeepsShape(ws: Workspace, url: string, name: string, branch: string, o: CloneOutcomes)
    requires PrefixClosed(ws.paths)
    ensures PrefixClosed(CloneRepository(ws, url, name, branch, o).ws.paths)
  {
    if InitializeReposDirectory(ws, o.mkdir).Ok? {
      InitializeKeepsShape(ws, o.mkdir, name);
      var w := InitializeReposDirectory(ws, o.mkdir).value;
      var dest := RepositoryPath(w, name);
      var paths := w.paths + {dest, dest + [".git"]};
      forall p, i | p in paths && 1 <= i < |p| ensures p[..i] in paths {
        if p == dest || p == dest + [".git"] {
          assert ws.base in w.paths;
          if i < |ws.base| {
            assert p[..i] == ws.base[..i];
            assert ws.base[..i] in w.paths;
          } else if i == |ws.base| {
            assert p[..i] == ws.base;
          } else if i == |dest| {
            assert p[..i] == dest;
          }
        }
      }
    }
  }

  /**
    `deleteRepository`: removes the checkout and everything beneath it; a
    missing checkout is a successful no-op. `rmOk` is whether removal succeeds.
  */
  function DeleteRepository(ws: Workspace, name: string, rmOk: bool): (r: Result<Workspace, GitError>)
    ensures r.Ok? <==> RepositoryPath(ws, name) !in ws.paths || rmOk
    ensures RepositoryPath(ws, name) !in ws.paths ==> r == Ok(ws)
    ensures RepositoryPath(ws, name) in ws.paths && !rmOk ==> r == Err(CouldNotDelete)
    ensures r.Ok? ==> r.value.base == ws.base && r.value.paths <= ws.paths
    ensures r.Ok? ==> RepositoryPath(ws, name) !in r.value.paths
    ensures r.Ok? ==> forall p :: p in ws.paths && !Under(p, RepositoryPath(ws, name)) ==> p in r.value.paths
    ensures r.Ok? && PrefixClosed(ws.paths) ==>
      forall p :: p in r.value.paths ==> !Under(p, RepositoryPath(ws, name))
  {
    var dir := RepositoryPath(ws, name);
    if dir !in ws.paths then
      assert PrefixClosed(ws.paths) ==> forall p :: p in ws.paths ==> !Under(p, dir) by {
        if PrefixClosed(ws.paths) {
          forall p | p in ws.paths ensures !Under(p, dir) {
            if |p| > |dir| {
              assert p[..|dir|] in ws.paths;
            } else if |p| == |dir| {
              assert p == p[..|dir|];
            }
          }
        }
      }
      Ok(ws)
    else if !rmOk then Err(CouldNotDelete)
    else
      Ok(ws.(paths := set p | p in ws.paths && !Under(p, dir)))
  }

  /** Deleting twice is deleting once: the second call finds nothing and succeeds. */
  lemma DeleteIdempotent(ws: Workspace, name: string, first: bool, second: bool)
    requires DeleteRepository(ws, name, first).Ok?
    ensures var w := DeleteRepository(ws, name, first).value;
      DeleteRepository(w, name, second) == Ok(w)
  {
  }

  /** A deletion keeps the filesystem prefix-closed and leaves the name not cloned. */
  lemma DeleteKeepsShape(ws: Workspace, name: string, rmOk: bool)
    requires PrefixClosed(ws.paths)
    requires DeleteRepository(ws, name, rmOk).Ok?
    ensures PrefixClosed(DeleteRepository(ws, name, rmOk).value.paths)
    ensures !IsCloned(DeleteRepository(ws, name, rmOk).value, name)
  {
    var dir := RepositoryPath(ws, name);
    var w := DeleteRepository(ws, name, rmOk).value;
    forall p, i | p in w.paths && 1 <= i < |p| ensures p[..i] in w.paths {
      assert p[..i] in ws.paths;
    }
    assert Under(GitMarker(ws, name), dir);
  }
}

=== FILE: report_model.dfy ===
/**
  Normalisation of a scanner payload: the payload becomes a list of project
  results, the vulnerabilities of all projects are flattened in project order,
  and an executive summary counts them by severity.
*/
module ReportModel {
  import opened Wrappers
  import opened SnykTypes

  /** The constructor's normalisation: an array is used as it is, a lone object is wrapped. */
  function Projects(payload: Payload): (ps: seq<ProjectResult>)
    ensures |ps| == (if payload.Single? then 1 else |payload.projects|)
    ensures forall p :: p in ps <==> if payload.Single? then p == payload.project else p in payload.projects
  {
    match payload
    case Single(p) => [p]
    case Many(ps) => ps
  }

  /** A project's vulnerability list, with a missing list read as empty. */
  function VulnerabilitiesOf(p: ProjectResult): seq<Vulnerability> {
    p.vulnerabilities.GetOr([])
  }

  /** A project's dependency count, with a missing count read as zero. */
  function DependencyCountOf(p: ProjectResult): int {
    p.dependencyCount.GetOr(0)
  }

  /** Every project's vulnerabilities, concatenated in project order. */
  function AllVulnerabilities(ps: seq<ProjectResult>): (vs: seq<Vulnerability>)
    ensures forall v :: v in vs <==> exists i :: 0 <= i < |ps| && v in VulnerabilitiesOf(ps[i])
    ensures (forall i :: 0 <= i < |ps| ==> VulnerabilitiesOf(ps[i]) == []) <==> vs == []
  {
    if |ps| == 0 then []
    else
      var rest := AllVulnerabilities(ps[1..]);
      assert forall i :: 1 <= i < |ps| ==> ps[i] == ps[1..][i - 1];
      VulnerabilitiesOf(ps[0]) + rest
  }

  /** The sum of the projects' dependency counts. */
  function TotalDependencies(ps: seq<ProjectResult>): int {
    if |ps| == 0 then 0 else DependencyCountOf(ps[0]) + TotalDependencies(ps[1..])
  }

  /** The entries of `vs` whose severity tag is `tag`, in their original order. */
  function OfSeverity(vs: seq<Vulnerability>, tag: string): (r: seq<Vulnerability>)
    ensures |r| <= |vs|
    ensures forall v :: v in r <==> v in vs && v.severity == tag
  {
    if |vs| == 0 then []
    else (if vs[0].severity == tag then [vs[0]] else []) + OfSeverity(vs[1..], tag)
  }

  /** Every entry carries one of the four typed severity labels. */
  predicate AllTyped(vs: seq<Vulnerability>) {
    forall i :: 0 <= i < |vs| ==> vs[i].severity in SeverityLabels
  }

  /** The sum of the four per-severity filter lengths. */
  function TypedCount(vs: seq<Vulnerability>): nat {
    |OfSeverity(vs, "critical")| + |OfSeverity(vs, "high")|
      + |OfSeverity(vs, "medium")| + |OfSeverity(vs, "low")|
  }

  /** `getExecutiveSummary`, without the wall-clock scan date. */
  datatype ExecutiveSummary = ExecutiveSummary(
    totalProjects: nat,
    projectNames: seq<string>,
    totalVulnerabilities: nat,
    criticalCount: nat,
    highCount: nat,
    mediumCount: nat,
    lowCount: nat,
    isClean: bool)

  /** The projects' names, in project order. */
  function ProjectNames(ps: seq<ProjectResult>): (names: seq<string>)
    ensures |names| == |ps|
    ensures forall i :: 0 <= i < |ps| ==> names[i] == ps[i].projectName
  {
    seq(|ps|, i requires 0 <= i < |ps| => ps[i].projectName)
  }

  /** `reduce((acc, proj) => acc + (proj.dependencyCount || 0), acc)`: a left fold over the projects. */
  function SumFrom(acc: int, ps: seq<ProjectResult>): int
    decreases |ps|
  {
    if |ps| == 0 then acc else SumFrom(acc + DependencyCountOf(ps[0]), ps[1..])
  }

  /** The left fold from `acc` adds `acc` to the (right-recursive) sum of the counts. */
  lemma {:induction false} SumFromIsTotal(acc: int, ps: seq<ProjectResult>)
    ensures SumFrom(acc, ps) == acc + TotalDependencies(ps)
    decreases |ps|
  {
    if |ps| > 0 {
      SumFromIsTotal(acc + DependencyCountOf(ps[0]), ps[1..]);
    }
  }

  /**
    `getTotalDependencies` of the report built from `payload`: the reduce from
    0, which is the sum of the projects' counts with a missing count as zero.
  */
  function GetTotalDependencies(payload: Payload): (n: int)
    ensures n == TotalDependencies(Projects(payload))
  {
    SumFromIsTotal(0, Projects(payload));
    SumFrom(0, Projects(payload))
  }

  /** `getAllVulnerabilities` of the report built from `payload`. */
  function GetAllVulnerabilities(payload: Payload): seq<Vulnerability> {
    AllVulnerabilities(Projects(payload))
  }

  /** `getIssuesBySeverity`: the flattened entries of one severity, in order. */
  function IssuesBySeverity(payload: Payload, s: Severity): (r: seq<Vulnerability>)
    ensures forall v :: v in r <==> v in GetAllVulnerabilities(payload) && v.severity == s.Label()
    ensures |r| <= |GetAllVulnerabilities(payload)|
  {
    OfSeverity(GetAllVulnerabilities(payload), s.Label())
  }

  /** `getExecutiveSummary` of the report built from `payload`. */
  function Summarize(payload: Payload): (s: ExecutiveSummary)
    ensures s.totalProjects == |Projects(payload)|
    ensures s.projectNames == ProjectNames(Projects(payload))
    ensures s.totalVulnerabilities == |GetAllVulnerabilities(payload)|
    ensures s.isClean <==> s.totalVulnerabilities == 0
    ensures s.criticalCount == |IssuesBySeverity(payload, Critical)|
    ensures s.highCount == |IssuesBySeverity(payload, High)|
    ensures s.mediumCount == |IssuesBySeverity(payload, Medium)|
    ensures s.lowCount == |IssuesBySeverity(payload, Low)|
    ensures s.criticalCount + s.highCount + s.mediumCount + s.lowCount <= s.totalVulnerabilities
    ensures AllTyped(GetAllVulnerabilities(payload))
      <==> s.criticalCount + s.highCount + s.mediumCount + s.lowCount == s.totalVulnerabilities
  {
    var ps := Projects(payload);
    var vs := AllVulnerabilities(ps);
    TypedCountBound(vs);
    ExecutiveSummary(
      |ps|,
      ProjectNames(ps),
      |vs|,
      |OfSeverity(vs, "critical")|,
      |OfSeverity(vs, "high")|,
      |OfSeverity(vs, "medium")|,
      |OfSeverity(vs, "low")|,
      |vs| == 0)
  }

  /**
    Each entry lands in at most one severity bucket, and in exactly one iff its
    tag is typed; so the four counts add up to the total iff every tag is typed.
  */
  lemma {:induction false} TypedCountBound(vs: seq<Vulnerability>)
    ensures TypedCount(vs) <= |vs|
    ensures AllTyped(vs) <==> TypedCount(vs) == |vs|
  {
    if |vs| > 0 {
      TypedCountBound(vs[1..]);
      TypedCountStep(vs);
      AllTypedStep(vs);
    }
  }

  /** The first entry adds one to the typed count iff its tag is typed. */
  lemma TypedCountStep(vs: seq<Vulnerability>)
    requires |vs| > 0
    ensures TypedCount(vs) == (if vs[0].severity in SeverityLabels then 1 else 0) + TypedCount(vs[1..])
  {
  }

  /** Every entry is typed iff the first one is and every later one is. */
  lemma AllTypedStep(vs: seq<Vulnerability>)
    requires |vs| > 0
    ensures AllTyped(vs) <==> vs[0].severity in SeverityLabels && AllTyped(vs[1..])
  {
  }

  /** Flattening distributes over concatenation of project lists: project order is kept. */
  lemma {:induction false} AllVulnerabilitiesAppend(ps: seq<ProjectResult>, qs: seq<ProjectResult>)
    ensures AllVulnerabilities(ps + qs) == AllVulnerabilities(ps) + AllVulnerabilities(qs)
  {
    if |ps| == 0 {
      assert ps + qs == qs;
    } else {
      assert (ps + qs)[1..] == ps[1..] + qs;
      AllVulnerabilitiesAppend(ps[1..], qs);
    }
  }

  /** Filtering by severity distributes over concatenation: relative order is kept. */
  lemma {:induction false} OfSeverityAppend(vs: seq<Vulnerability>, ws: seq<Vulnerability>, tag: string)
    ensures OfSeverity(vs + ws, tag) == OfSeverity(vs, tag) + OfSeverity(ws, tag)
  {
    if |vs| == 0 {
      assert vs + ws == ws;
    } else {
      assert (vs + ws)[1..] == vs[1..] + ws;
      OfSeverityAppend(vs[1..], ws, tag);
    }
  }

  /** Dependency counts add up across concatenated project lists. */
  lemma {:induction false} TotalDependenciesAppend(ps: seq<ProjectResult>, qs: seq<ProjectResult>)
    ensures TotalDependencies(ps + qs) == TotalDependencies(ps) + TotalDependencies(qs)
  {
    if |ps| == 0 {
      assert ps + qs == qs;
    } else {
      assert (ps + qs)[1..] == ps[1..] + qs;
      TotalDependenciesAppend(ps[1..], qs);
    }
  }

  /** With non-negative counts the total is at least each project's own count. */
  lemma {:induction false} TotalDependenciesBound(ps: seq<ProjectResult>, i: nat)
    requires i < |ps|
    requires forall j :: 0 <= j < |ps| ==> DependencyCountOf(ps[j]) >= 0
    ensures TotalDependencies(ps) >= DependencyCountOf(ps[i])
    ensures TotalDependencies(ps) >= 0
  {
    if i == 0 {
      TotalDependenciesNonNegative(ps[1..]);
    } else {
      TotalDependenciesBound(ps[1..], i - 1);
    }
  }

  /** Non-negative counts have a non-negative sum. */
  lemma {:induction false} TotalDependenciesNonNegative(ps: seq<ProjectResult>)
    requires forall j :: 0 <= j < |ps| ==> DependencyCountOf(ps[j]) >= 0
    ensures TotalDependencies(ps) >= 0
  {
    if |ps| > 0 {
      TotalDependenciesNonNegative(ps[1..]);
    }
  }

  /** A single object and a one-element array holding it yield the same report. */
  lemma ObjectArrayEquivalence(p: ProjectResult)
    ensures Summarize(Single(p)) == Summarize(Many([p]))
    ensures GetAllVulnerabilities(Single(p)) == GetAllVulnerabilities(Many([p])) == VulnerabilitiesOf(p)
    ensures GetTotalDependencies(Single(p)) == GetTotalDependencies(Many([p])) == DependencyCountOf(p)
  {
    assert [p][1..] == [];
    assert TotalDependencies([p]) == DependencyCountOf(p) + TotalDependencies([]);
  }

  /**
    Normalising is idempotent: the report built from the normalised project
    list, passed as an array, is the report built from the payload itself.
  */
  lemma NormalisationIdempotent(payload: Payload)
    ensures Projects(Many(Projects(payload))) == Projects(payload)
    ensures Summarize(Many(Projects(payload))) == Summarize(payload)
    ensures GetAllVulnerabilities(Many(Projects(payload))) == GetAllVulnerabilities(payload)
    ensures GetTotalDependencies(Many(Projects(payload))) == GetTotalDependencies(payload)
  {
  }

  /**
    Merging two array payloads adds their summaries: project lists and name
    lists concatenate, and every counter is the sum of the two.
  */
  lemma SummaryOfConcatenation(ps: seq<ProjectResult>, qs: seq<ProjectResult>)
    ensures var s, a, b := Summarize(Many(ps + qs)), Summarize(Many(ps)), Summarize(Many(qs));
      && s.totalProjects == a.totalProjects + b.totalProjects
      && s.projectNames == a.projectNames + b.projectNames
      && s.totalVulnerabilities == a.totalVulnerabilities + b.totalVulnerabilities
      && s.criticalCount == a.criticalCount + b.criticalCount
      && s.highCount == a.highCount + b.highCount
      && s.mediumCount == a.mediumCount + b.mediumCount
      && s.lowCount == a.lowCount + b.lowCount
      && (s.isClean <==> a.isClean && b.isClean)
  {
    ProjectNamesOfConcatenation(ps, qs);
    TotalOfConcatenation(ps, qs);
    CountOfConcatenation(ps, qs, Critical);
    CountOfConcatenation(ps, qs, High);
    CountOfConcatenation(ps, qs, Medium);
    CountOfConcatenation(ps, qs, Low);
  }

  /** The names of two concatenated project lists are the two name lists concatenated. */
  lemma ProjectNamesOfConcatenation(ps: seq<ProjectResult>, qs: seq<ProjectResult>)
    ensures ProjectNames(ps + qs) == ProjectNames(ps) + ProjectNames(qs)
  {
  }

  /** The number of findings of two concatenated project lists is the sum of the two. */
  lemma TotalOfConcatenation(ps: seq<ProjectResult>, qs: seq<ProjectResult>)
    ensures |GetAllVulnerabilities(Many(ps + qs))| == |GetAllVulnerabilities(Many(ps))| + |GetAllVulnerabilities(Many(qs))|
  {
    AllVulnerabilitiesAppend(ps, qs);
  }

  /** The number of findings of one tier in two concatenated project lists is the sum of the two. */
  lemma CountOfConcatenation(ps: seq<ProjectResult>, qs: seq<ProjectResult>, t: Severity)
    ensures |IssuesBySeverity(Many(ps + qs), t)| == |IssuesBySeverity(Many(ps), t)| + |IssuesBySeverity(Many(qs), t)|
  {
    IssuesOfConcatenation(ps, qs, t);
  }

  /** The findings of one tier in two concatenated project lists are those of each list, in order. */
  lemma IssuesOfConcatenation(ps: seq<ProjectResult>, qs: seq<ProjectResult>, s: Severity)
    ensures IssuesBySeverity(Many(ps + qs), s) == IssuesBySeverity(Many(ps), s) + IssuesBySeverity(Many(qs), s)
  {
    AllVulnerabilitiesAppend(ps, qs);
    OfSeverityAppend(AllVulnerabilities(ps), AllVulnerabilities(qs), s.Label());
  }
}

=== FILE: report_service.dfy ===
/**
  Persistence of a normalised report and the alert that follows it: the
  executive summary and the flattened vulnerabilities are mapped onto the
  stored document, the document is saved, and only then one notification is
  chosen — a tiered alert for a report with findings, an all-clear otherwise.
*/
module ReportService {
  import opened Wrappers
  import opened Strings
  import opened SnykTypes
  import opened ReportModel
  import opened SnykSchema

  /** The stored package name: `v.moduleName || v.packageName`. */
  function StoredPackageName(v: Vulnerability): Option<string> {
    OrElse(v.moduleName, v.packageName)
  }

  /** The sub-document built for one flattened vulnerability; `fixedIn` is never set. */
  function ToVulnerabilityInput(v: Vulnerability): VulnerabilityInput {
    VulnerabilityInput(Some(v.id), Some(v.title), Some(v.severity), StoredPackageName(v), Some(v.version), None, Some(v.from))
  }

  /** The document built from a summary, the raw payload and the flattened list. */
  function ToReportInput(s: ExecutiveSummary, raw: Payload, vs: seq<Vulnerability>): ReportInput {
    ReportInput(
      Some(s.projectNames),
      Some(s.isClean),
      SummaryInput(Some(s.totalVulnerabilities), Some(s.criticalCount), Some(s.highCount), Some(s.mediumCount), Some(s.lowCount)),
      seq(|vs|, i requires 0 <= i < |vs| => ToVulnerabilityInput(vs[i])),
      raw)
  }

  /** A vulnerability the schema accepts once mapped: required strings non-empty, severity typed. */
  predicate Storable(v: Vulnerability) {
    && v.id != ""
    && v.title != ""
    && v.severity in SeverityLabels
    && Present(StoredPackageName(v))
    && v.version != ""
  }

  /** A stored report together with the identifier the store gave it. */
  datatype SavedReport = SavedReport(id: string, document: StoredReport)

  /**
    `saveToDatabase`: the document is validated by the schema and written if
    the store accepts it (`storeUp`), receiving identifier `id`. `None` is the
    "Database save failed" error, raised for a rejected document and for a
    failed write alike.
  */
  function SaveToDatabase(s: ExecutiveSummary, raw: Payload, vs: seq<Vulnerability>, storeUp: bool, id: string): (r: Option<SavedReport>)
    ensures r.Some? <==> storeUp && forall i :: 0 <= i < |vs| ==> Storable(vs[i])
    ensures r.Some? ==>
      && r.value.id == id
      && r.value.document.projectNames == s.projectNames
      && r.value.document.isClean == s.isClean
      && r.value.document.summary == Summary(s.totalVulnerabilities, s.criticalCount, s.highCount, s.mediumCount, s.lowCount)
      && r.value.document.rawData == raw
      && |r.value.document.vulnerabilities| == |vs|
    ensures r.Some? ==> forall i :: 0 <= i < |vs| ==>
      var d, v := r.value.document.vulnerabilities[i], vs[i];
      && d.snykId == v.id
      && d.title == v.title
      && d.severity.Label() == v.severity
      && Some(d.packageName) == StoredPackageName(v)
      && d.version == v.version
      && d.fixedIn == []
      && d.from == v.from
  {
    var input := ToReportInput(s, raw, vs);
    assert forall i :: 0 <= i < |vs| ==> input.vulnerabilities[i] == ToVulnerabilityInput(vs[i]);
    match CastReport(input)
    case None => None
    case Some(doc) => if storeUp then Some(SavedReport(id, doc)) else None
  }

  /** The fields of an alert, in the order they are listed. */
  datatype FieldKind = ProjectsField | TotalField | SpacerField | CriticalField | HighField | MediumField | LowField

  /** A field's value: the joined project names, a count, a count in bold, or a blank spacer. */
  datatype FieldValue = Text(text: string) | Count(n: nat) | BoldCount(n: nat) | Blank

  /** One field of an alert. */
  datatype EmbedField = EmbedField(kind: FieldKind, value: FieldValue, inline: bool)

  /** A tiered alert: its tier, colour and fields (title, footer and timestamp are left out). */
  datatype Embed = Embed(tier: Severity, color: nat, fields: seq<EmbedField>)

  /** The one notification a saved report triggers. */
  datatype Notification = Alert(embed: Embed) | AllClear(projects: string)

  /** The order of the alert's fields. */
  const FieldOrder: seq<FieldKind> :=
    [ProjectsField, TotalField, SpacerField, CriticalField, HighField, MediumField, LowField]

  /** The colour codes of the tiers: red, orange, yellow and blue. */
  const CriticalColor: nat := 15548997
  const HighColor: nat := 15105570
  const MediumColor: nat := 16776960
  const LowColor: nat := 3447003

  /** The count of tier `t` in a summary. */
  function CountOf(s: ExecutiveSummary, t: Severity): nat {
    match t
    case Critical => s.criticalCount
    case High => s.highCount
    case Medium => s.mediumCount
    case Low => s.lowCount
  }

  /** The alert tier, by priority critical > high > medium; low when none of those is present. */
  function AlertTier(s: ExecutiveSummary): (t: Severity)
    ensures t == Critical <==> s.criticalCount > 0
    ensures t == High <==> s.criticalCount == 0 && s.highCount > 0
    ensures t == Medium <==> s.criticalCount == 0 && s.highCount == 0 && s.mediumCount > 0
    ensures t == Low <==> s.criticalCount == 0 && s.highCount == 0 && s.mediumCount == 0
  {
    if s.criticalCount > 0 then Critical
    else if s.highCount > 0 then High
    else if s.mediumCount > 0 then Medium
    else Low
  }

  /** The colour of a tier. */
  function TierColor(t: Severity): nat {
    match t
    case Critical => CriticalColor
    case High => HighColor
    case Medium => MediumColor
    case Low => LowColor
  }

  /** `sendDiscordAlert`'s embed for a summary. */
  function BuildAlert(s: ExecutiveSummary): (e: Embed)
    ensures e.tier == AlertTier(s) && e.color == TierColor(e.tier)
    ensures |e.fields| == 7
    ensures forall i :: 0 <= i < 7 ==> e.fields[i].kind == FieldOrder[i]
    ensures e.fields[0] == EmbedField(ProjectsField, Text(Join(s.projectNames, ", ")), false)
    ensures e.fields[1].value == Count(s.totalVulnerabilities)
    ensures e.fields[2].value == Blank
    ensures e.fields[3].value == BoldCount(s.criticalCount)
    ensures e.fields[4].value == BoldCount(s.highCount)
    ensures e.fields[5].value == BoldCount(s.mediumCount)
    ensures e.fields[6].value == BoldCount(s.lowCount)
    ensures forall i :: 1 <= i < 7 ==> e.fields[i].inline
  {
    var t := AlertTier(s);
    Embed(t, TierColor(t), [
      EmbedField(ProjectsField, Text(Join(s.projectNames, ", ")), false),
      EmbedField(TotalField, Count(s.totalVulnerabilities), true),
      EmbedField(SpacerField, Blank, true),
      EmbedField(CriticalField, BoldCount(s.criticalCount), true),
      EmbedField(HighField, BoldCount(s.highCount), true),
      EmbedField(MediumField, BoldCount(s.mediumCount), true),
      EmbedField(LowField, BoldCount(s.lowCount), true)])
  }

  /** The colour picks the highest tier with a non-zero count: each colour iff its condition. */
  lemma ColorPriority(s: ExecutiveSummary)
    ensures BuildAlert(s).color == CriticalColor <==> s.criticalCount > 0
    ensures BuildAlert(s).color == HighColor <==> s.criticalCount == 0 && s.highCount > 0
    ensures BuildAlert(s).color == MediumColor <==> s.criticalCount == 0 && s.highCount == 0 && s.mediumCount > 0
    ensures BuildAlert(s).color == LowColor <==> s.criticalCount == 0 && s.highCount == 0 && s.mediumCount == 0
  {
  }

  /** No tier above the chosen one has findings, and a tier above low is chosen only for its own findings. */
  lemma TierIsHighestPresent(s: ExecutiveSummary, u: Severity)
    requires u.Rank() > AlertTier(s).Rank()
    ensures CountOf(s, u) == 0
    ensures AlertTier(s) != Low ==> CountOf(s, AlertTier(s)) > 0
  {
  }

  /** The notification for a summary: an all-clear naming the projects, or the tiered alert. */
  function Notify(s: ExecutiveSummary): (n: Notification)
    ensures s.isClean <==> n.AllClear?
    ensures n.AllClear? ==> n.projects == Join(s.projectNames, ", ")
    ensures n.Alert? ==> n.embed == BuildAlert(s)
  {
    if s.isClean then AllClear(Join(s.projectNames, ", ")) else Alert(BuildAlert(s))
  }

  /** What processing a payload does to the outside world, in order. */
  datatype ReportEffect = Stored(id: string) | Sent(notification: Notification)

  /** The outcome of processing a payload: the saved report (or the save failure) and its effects. */
  datatype Processed = Processed(saved: Option<SavedReport>, effects: seq<ReportEffect>)

  /**
    `processSnykPayload`: normalise, save, then notify. A failed save raises
    before any notification; a notification's own delivery failure is
    swallowed by the transport and does not show here.
  */
  function ProcessSnykPayload(raw: Payload, storeUp: bool, id: string): (p: Processed)
    ensures p.saved.None? ==> p.effects == []
    ensures p.saved.Some? ==> p.effects == [Stored(id), Sent(Notify(Summarize(raw)))]
    ensures p.saved.Some? <==> storeUp && forall v :: v in GetAllVulnerabilities(raw) ==> Storable(v)
    ensures p.saved.Some? ==> p.saved.value.id == id && p.saved.value.document.rawData == raw
  {
    var summary := Summarize(raw);
    var all := GetAllVulnerabilities(raw);
    match SaveToDatabase(summary, raw, all, storeUp, id)
    case None => Processed(None, [])
    case Some(saved) => Processed(Some(saved), [Stored(id), Sent(Notify(summary))])
  }

  /**
    A saved report satisfies the report invariant: total equals the length of
    the stored list and the sum of the four counts, and the report is clean iff
    the total is zero. The schema's severity check is what makes the sum exact.
  */
  lemma SavedReportCountsAddUp(raw: Payload, storeUp: bool, id: string)
    requires storeUp && forall v :: v in GetAllVulnerabilities(raw) ==> Storable(v)
    ensures var d := ProcessSnykPayload(raw, storeUp, id).saved.value.document;
      && d.summary.total == |d.vulnerabilities|
      && d.summary.total == d.summary.critical + d.summary.high + d.summary.medium + d.summary.low
      && (d.isClean <==> d.summary.total == 0)
  {
    var all := GetAllVulnerabilities(raw);
    assert AllTyped(all) by {
      forall i | 0 <= i < |all| ensures all[i].severity in SeverityLabels {
        assert all[i] in all;
      }
    }
  }

  /**
    For a summary that satisfies the saved-report invariant, a low-tier alert
    is only ever sent when there are low findings.
  */
  lemma LowAlertHasLowFindings(s: ExecutiveSummary)
    requires s.totalVulnerabilities == s.criticalCount + s.highCount + s.mediumCount + s.lowCount
    requires s.isClean <==> s.totalVulnerabilities == 0
    requires Notify(s).Alert? && Notify(s).embed.tier == Low
    ensures s.lowCount > 0
  {
  }
}

=== FILE: repository_schema.dfy ===
/**
  The repository registry: the stored record with its schema (trimmed strings,
  defaults for branch, enabled and cloned, a required unique name) and the
  queries the core runs against the collection, modelled as an ordered list
  of records.
*/
module RepositorySchema {
  import opened Wrappers
  import opened Strings
  import opened RepositoryTypes

  /** A clock reading; wall-clock values are left abstract. */
  type Timestamp = nat

  /** A stored repository record. */
  datatype RepositoryRecord = RepositoryRecord(
    name: string,
    url: string,
    branch: string,
    enabled: bool,
    cloned: bool,
    lastScan: Option<Timestamp>)

  /** A repository document as handed to the schema, before casting and validation. */
  datatype RepositoryDraft = RepositoryDraft(
    name: Option<string>,
    url: Option<string>,
    branch: Option<string>,
    enabled: Option<bool>,
    cloned: Option<bool>)

  /** The default branch. */
  const DefaultBranch: string := "main"

  /**
    Casts a document: name, url and branch are trimmed, branch defaults to
    "main", enabled to true and cloned to false; name and url are required,
    so a missing or blank one fails validation. lastScan starts unset.
  */
  function CastRepository(d: RepositoryDraft): (r: Option<RepositoryRecord>)
    ensures r.Some? <==> d.name.Some? && Trim(d.name.value) != "" && d.url.Some? && Trim(d.url.value) != ""
    ensures r.Some? ==>
      && r.value.name == Trim(d.name.value)
      && r.value.url == Trim(d.url.value)
      && r.value.branch == Trim(d.branch.GetOr(DefaultBranch))
      && r.value.enabled == d.enabled.GetOr(true)
      && r.value.cloned == d.cloned.GetOr(false)
      && r.value.lastScan.None?
    ensures r.Some? ==> Trimmed(r.value)
  {
    if d.name.None? || d.url.None? then None
    else
      var name, url, branch := Trim(d.name.value), Trim(d.url.value), Trim(d.branch.GetOr(DefaultBranch));
      if name == "" || url == "" then None
      else
        TrimIdempotent(d.name.value);
        TrimIdempotent(d.url.value);
        TrimIdempotent(d.branch.GetOr(DefaultBranch));
        Some(RepositoryRecord(name, url, branch, d.enabled.GetOr(true), d.cloned.GetOr(false), None))
  }

  /** The record's strings are stored trimmed. */
  predicate Trimmed(r: RepositoryRecord) {
    Trim(r.name) == r.name && Trim(r.url) == r.url && Trim(r.branch) == r.branch
  }

  /** The collection, in its natural order. */
  type Registry = seq<RepositoryRecord>

  /** The unique index on name: no two records share a name. */
  predicate UniqueNames(reg: Registry) {
    forall i, j :: 0 <= i < j < |reg| ==> reg[i].name != reg[j].name
  }

  /** A query value for `name`, cast through the schema's trim setter. */
  function QueryKey(name: string): string {
    Trim(name)
  }

  /** The first record whose name is `key`. */
  function Find(reg: Registry, key: string): (r: Option<RepositoryRecord>)
    ensures r.Some? <==> exists i :: 0 <= i < |reg| && reg[i].name == key
    ensures r.Some? ==> r.value in reg && r.value.name == key
  {
    if |reg| == 0 then None
    else if reg[0].name == key then Some(reg[0])
    else
      var r := Find(reg[1..], key);
      assert forall i :: 1 <= i < |reg| ==> reg[i] == reg[1..][i - 1];
      r
  }

  /** `findOne({ name })`: the query value is trimmed, so surrounding spaces in `name` do not matter. */
  function FindByName(reg: Registry, name: string): (r: Option<RepositoryRecord>)
    ensures r.Some? <==> exists i :: 0 <= i < |reg| && reg[i].name == Trim(name)
    ensures r.Some? ==> r.value in reg && r.value.name == Trim(name)
  {
    Find(reg, QueryKey(name))
  }

  /** No record is named `key`. */
  predicate NameFree(reg: Registry, key: string) {
    forall i :: 0 <= i < |reg| ==> reg[i].name != key
  }

  /** Appending a record whose name is free keeps names unique. */
  lemma UniqueSnoc(reg: Registry, x: RepositoryRecord)
    requires UniqueNames(reg) && NameFree(reg, x.name)
    ensures UniqueNames(reg + [x])
  {
    var r := reg + [x];
    forall i, j | 0 <= i < j < |r| ensures r[i].name != r[j].name {
      if j < |reg| {
        assert r[i] == reg[i] && r[j] == reg[j];
      } else {
        assert r[i] == reg[i];
      }
    }
  }

  /** Prepending a record whose name is free keeps names unique. */
  lemma UniqueCons(x: RepositoryRecord, reg: Registry)
    requires UniqueNames(reg) && NameFree(reg, x.name)
    ensures UniqueNames([x] + reg)
  {
    var r := [x] + reg;
    forall i, j | 0 <= i < j < |r| ensures r[i].name != r[j].name {
      assert r[j] == reg[j - 1];
      if i > 0 {
        assert r[i] == reg[i - 1];
      }
    }
  }

  /** The tail of a uniquely named registry is uniquely named and lacks the head's name. */
  lemma UniqueTail(reg: Registry)
    requires |reg| > 0 && UniqueNames(reg)
    ensures UniqueNames(reg[1..]) && NameFree(reg[1..], reg[0].name)
  {
    forall i, j | 0 <= i < j < |reg[1..]| ensures reg[1..][i].name != reg[1..][j].name {
      assert reg[1..][i] == reg[i + 1] && reg[1..][j] == reg[j + 1];
    }
    forall i | 0 <= i < |reg[1..]| ensures reg[1..][i].name != reg[0].name {
      assert reg[1..][i] == reg[i + 1];
    }
  }

  /** Why saving a record failed. */
  datatype SaveError = ValidationFailed | DuplicateName | StoreUnavailable

  /**
    `save()` of a new record: the document must cast, its (trimmed) name must
    not be taken, and the store must accept the write. The record is appended.
  */
  function Insert(reg: Registry, d: RepositoryDraft, storeUp: bool): (r: Result<Registry, SaveError>)
    ensures r.Ok? <==> CastRepository(d).Some? && Find(reg, CastRepository(d).value.name).None? && storeUp
    ensures r.Ok? ==> r.value == reg + [CastRepository(d).value]
  {
    match CastRepository(d)
    case None => Err(ValidationFailed)
    case Some(rec) =>
      if Find(reg, rec.name).Some? then Err(DuplicateName)
      else if !storeUp then Err(StoreUnavailable)
      else Ok(reg + [rec])
  }

  /** A successful insert keeps the registry uniquely named and makes the new name findable. */
  lemma InsertKeepsUnique(reg: Registry, d: RepositoryDraft, storeUp: bool)
    requires UniqueNames(reg) && storeUp
    requires d.name.Some? && d.url.Some? && Trim(d.name.value) != "" && Trim(d.url.value) != ""
    requires NameFree(reg, Trim(d.name.value))
    ensures Insert(reg, d, storeUp).Ok?
    ensures UniqueNames(Insert(reg, d, storeUp).value)
    ensures FindByName(Insert(reg, d, storeUp).value, d.name.value) == CastRepository(d)
  {
    var rec := CastRepository(d).value;
    var r := reg + [rec];
    assert NameFree(reg, rec.name);
    UniqueSnoc(reg, rec);
    TrimIdempotent(d.name.value);
    FindLast(reg, rec);
  }

  /** In a registry where `x`'s name is free, appending `x` makes it the one found by that name. */
  lemma {:induction false} FindLast(reg: Registry, x: RepositoryRecord)
    requires NameFree(reg, x.name)
    ensures Find(reg + [x], x.name) == Some(x)
  {
    if |reg| == 0 {
      assert reg + [x] == [x];
    } else {
      assert (reg + [x])[1..] == reg[1..] + [x];
      assert NameFree(reg[1..], x.name) by {
        forall i | 0 <= i < |reg[1..]| ensures reg[1..][i].name != x.name {
          assert reg[1..][i] == reg[i + 1];
        }
      }
      FindLast(reg[1..], x);
    }
  }

  /** Removes the first record named `key`, returning it. */
  function RemoveFirst(reg: Registry, key: string): (r: (Registry, Option<RepositoryRecord>))
    ensures r.1 == Find(reg, key)
    ensures r.1.None? ==> r.0 == reg
    ensures forall x :: x in r.0 ==> x in reg
    ensures forall x :: x in reg && x.name != key ==> x in r.0
  {
    if |reg| == 0 then (reg, None)
    else if reg[0].name == key then (reg[1..], Some(reg[0]))
    else
      var rest := RemoveFirst(reg[1..], key);
      ([reg[0]] + rest.0, rest.1)
  }

  /** On a uniquely named registry, removal keeps names unique and removes the name. */
  lemma {:induction false} RemoveFirstUnique(reg: Registry, key: string)
    requires UniqueNames(reg)
    ensures UniqueNames(RemoveFirst(reg, key).0)
    ensures NameFree(RemoveFirst(reg, key).0, key)
  {
    if |reg| > 0 {
      UniqueTail(reg);
      if reg[0].name != key {
        RemoveFirstUnique(reg[1..], key);
        var rest := RemoveFirst(reg[1..], key).0;
        forall i | 0 <= i < |rest| ensures rest[i].name != reg[0].name {
          assert rest[i] in reg[1..];
        }
        UniqueCons(reg[0], rest);
        var r := [reg[0]] + rest;
        forall i | 0 <= i < |r| ensures r[i].name != key {
          if i > 0 { assert r[i] == rest[i - 1]; }
        }
      }
    }
  }

  /** `findOneAndDelete({ name })`: the registry without that record, and the record. */
  function DeleteByName(reg: Registry, name: string): (r: (Registry, Option<RepositoryRecord>))
    ensures r.1 == FindByName(reg, name)
    ensures r.1.None? ==> r.0 == reg
  {
    RemoveFirst(reg, QueryKey(name))
  }

  /** Deleting keeps the registry uniquely named, and the deleted name is no longer found. */
  lemma DeleteKeepsUnique(reg: Registry, name: string)
    requires UniqueNames(reg)
    ensures UniqueNames(DeleteByName(reg, name).0)
    ensures FindByName(DeleteByName(reg, name).0, name).None?
  {
    RemoveFirstUnique(reg, QueryKey(name));
  }

  /**
    `findOneAndUpdate({ name }, { lastScan: now }, { upsert: false })`: the
    first record with that name gets the new lastScan; nothing is created.
  */
  function RecordLastScan(reg: Registry, name: string, now: Timestamp): (r: Registry)
    ensures |r| == |reg|
    ensures forall i :: 0 <= i < |reg| ==> r[i].name == reg[i].name
    ensures forall i :: 0 <= i < |reg| && reg[i].name != QueryKey(name) ==> r[i] == reg[i]
    ensures FindByName(reg, name).None? ==> r == reg
    ensures FindByName(reg, name).Some? ==> FindByName(r, name) == Some(FindByName(reg, name).value.(lastScan := Some(now)))
  {
    SetLastScan(reg, QueryKey(name), now)
  }

  /** Sets lastScan on the first record named `key`. */
  function SetLastScan(reg: Registry, key: string, now: Timestamp): (r: Registry)
    ensures |r| == |reg|
    ensures forall i :: 0 <= i < |reg| ==> r[i].name == reg[i].name
    ensures forall i :: 0 <= i < |reg| && reg[i].name != key ==> r[i] == reg[i]
    ensures Find(reg, key).None? ==> r == reg
    ensures Find(reg, key).Some? ==> Find(r, key) == Some(Find(reg, key).value.(lastScan := Some(now)))
  {
    if |reg| == 0 then reg
    else if reg[0].name == key then [reg[0].(lastScan := Some(now))] + reg[1..]
    else
      var rest := SetLastScan(reg[1..], key, now);
      var r := [reg[0]] + rest;
      assert r[1..] == rest;
      r
  }

  /** `find({ enabled: true })`: the enabled records, in collection order. */
  function Enabled(reg: Registry): (e: Registry)
    ensures |e| <= |reg|
    ensures forall x :: x in e <==> x in reg && x.enabled
  {
    if |reg| == 0 then []
    else (if reg[0].enabled then [reg[0]] else []) + Enabled(reg[1..])
  }

  /** Enabled selection distributes over concatenation: collection order is kept. */
  lemma {:induction false} EnabledAppend(a: Registry, b: Registry)
    ensures Enabled(a + b) == Enabled(a) + Enabled(b)
  {
    if |a| == 0 {
      assert a + b == b;
    } else {
      assert (a + b)[1..] == a[1..] + b;
      EnabledAppend(a[1..], b);
    }
  }
}

=== FILE: repository_types.dfy ===
/** The outcome of one scan of a tracked repository. */
module RepositoryTypes {
  import opened Wrappers

  /**
    Why a scan failed. The tags stand for the error messages the scan step
    produces; `ScannerRejected` and `TaskRejected` carry the text the source
    forwards (`None` is the generic "unknown error" message).
  */
  datatype ScanError =
    | NotCloned
    | MissingToken
    | ScannerFailed
    | UnparseableOutput
    | ScannerRejected(message: string)
    | DatabaseSaveFailed
    | LastScanNotRecorded
    | TaskRejected(reason: Option<string>)

  /** The result of scanning one repository; the scan time is left abstract. */
  datatype ScanResult = ScanResult(
    repository: string,
    success: bool,
    reportId: Option<string>,
    error: Option<ScanError>)

  /** A successful result names the report it produced; a failed one says why. */
  predicate WellFormed(r: ScanResult) {
    && (r.success <==> r.reportId.Some?)
    && (r.success <==> r.error.None?)
  }

  /** The failed result the scan step starts from and returns on any error. */
  function Failed(repository: string, e: ScanError): (r: ScanResult)
    ensures WellFormed(r) && !r.success && r.repository == repository && r.error == Some(e)
  {
    ScanResult(repository, false, None, Some(e))
  }

  /** The successful result of a scan that stored report `reportId`. */
  function Succeeded(repository: string, reportId: string): (r: ScanResult)
    ensures WellFormed(r) && r.success && r.repository == repository && r.reportId == Some(reportId)
  {
    ScanResult(repository, true, Some(reportId), None)
  }
}

=== FILE: scan_controller.dfy ===
/**
  The request handlers that drive the registry, the checkouts and the scans.
  Each handler is a function of the state it acts on (the registry and the
  checkout tree) and of the outcomes of its external calls; it answers with a
  status code and the state afterwards. A failed registry query is the
  `registryUp == false` input.
*/
module ScanController {
  import opened Wrappers
  import opened Strings
  import opened RepositoryTypes
  import opened RepositorySchema
  import opened GitService
  import opened SnykService

  /** The status codes the handlers answer with. */
  const StatusOk: nat := 200
  const StatusCreated: nat := 201
  const StatusBadRequest: nat := 400
  const StatusNotFound: nat := 404
  const StatusConflict: nat := 409
  const StatusServerError: nat := 500

  /** What the handlers act on: the registry and the checkout tree. */
  datatype State = State(registry: Registry, ws: Workspace)

  /** The answer to a manual scan: the status, the scan result when a scan ran, and the state afterwards. */
  datatype ManualResponse = ManualResponse(status: nat, result: Option<ScanResult>, state: State)

  /**
    `scanManual`: the name is required, the repository must be registered,
    enabled and cloned, in that order; only then does it scan, answering 200
    for a successful scan and 500 otherwise. The scan runs on the stored
    record's name and branch.
  */
  function ScanManual(st: State, repositoryName: Option<string>, registryUp: bool, io: ScanIo): (r: ManualResponse)
    ensures !Present(repositoryName) ==> r.status == StatusBadRequest && r.result.None? && r.state == st
    ensures Present(repositoryName) && !registryUp ==> r.status == StatusServerError && r.result.None? && r.state == st
    ensures Present(repositoryName) && registryUp ==> (r.status == StatusNotFound <==> FindByName(st.registry, repositoryName.value).None?)
    ensures r.result.Some? <==>
      && Present(repositoryName) && registryUp
      && FindByName(st.registry, repositoryName.value).Some?
      && FindByName(st.registry, repositoryName.value).value.enabled
      && FindByName(st.registry, repositoryName.value).value.cloned
    ensures r.result.Some? ==> r.result.value.repository == QueryKey(repositoryName.value)
    ensures r.result.Some? ==> (r.status == StatusOk <==> r.result.value.success)
    ensures r.result.Some? && !r.result.value.success ==> r.status == StatusServerError
    ensures r.result.None? ==> r.state == st && r.status != StatusOk
    ensures r.state.ws == st.ws
    ensures r.result.Some? ==>
      var rec := FindByName(st.registry, repositoryName.value).value;
      var run := ScanRepository(st.ws, st.registry, rec.name, rec.branch, io);
      r.result == Some(run.result) && r.state.registry == run.registry
  {
    if !Present(repositoryName) then ManualResponse(StatusBadRequest, None, st)
    else if !registryUp then ManualResponse(StatusServerError, None, st)
    else
      match FindByName(st.registry, repositoryName.value)
      case None => ManualResponse(StatusNotFound, None, st)
      case Some(rec) =>
        if !rec.enabled || !rec.cloned then ManualResponse(StatusBadRequest, None, st)
        else
          var run := ScanRepository(st.ws, st.registry, rec.name, rec.branch, io);
          ManualResponse(if run.result.success then StatusOk else StatusServerError, Some(run.result), st.(registry := run.registry))
  }

  /** A disabled or uncloned repository is refused with 400 and never scanned. */
  lemma ManualScanRefusesInactive(st: State, name: string, io: ScanIo)
    requires name != "" && FindByName(st.registry, name).Some?
    requires !FindByName(st.registry, name).value.enabled || !FindByName(st.registry, name).value.cloned
    ensures ScanManual(st, Some(name), true, io) == ManualResponse(StatusBadRequest, None, st)
  {
  }

  /** The number of successful results. */
  function SuccessCount(results: seq<ScanResult>): (n: nat)
    ensures n <= |results|
    ensures n == |results| <==> forall i :: 0 <= i < |results| ==> results[i].success
    ensures n == 0 <==> forall i :: 0 <= i < |results| ==> !results[i].success
  {
    if |results| == 0 then 0
    else
      var rest := SuccessCount(results[1..]);
      assert forall i :: 1 <= i < |results| ==> results[i] == results[1..][i - 1];
      (if results[0].success then 1 else 0) + rest
  }

  /** The successes among the results, in order. */
  function Successes(results: seq<ScanResult>): (s: seq<ScanResult>)
    ensures forall x :: x in s <==> x in results && x.success
  {
    if |results| == 0 then []
    else (if results[0].success then [results[0]] else []) + Successes(results[1..])
  }

  /** The count is the length of the filtered list, as `filter(r => r.success).length` computes it. */
  lemma {:induction false} SuccessCountIsFilterLength(results: seq<ScanResult>)
    ensures SuccessCount(results) == |Successes(results)|
  {
    if |results| > 0 {
      SuccessCountIsFilterLength(results[1..]);
    }
  }

  /** The answer to a fleet scan: the status and, on success, the count and the results. */
  datatype FleetResponse = FleetResponse(status: nat, successCount: nat, results: seq<ScanResult>)

  /**
    `scanAll`: scans every enabled repository and answers 200 with the number
    of successful results out of all results, or 500 when the registry could
    not be read.
  */
  function ScanAll(st: State, registryUp: bool, ioFor: string -> ScanIo): (r: FleetResponse)
    ensures !registryUp <==> r.status == StatusServerError
    ensures !registryUp ==> r.results == [] && r.successCount == 0
    ensures registryUp ==> r.status == StatusOk && |r.results| == |Enabled(st.registry)|
    ensures r.successCount <= |r.results|
    ensures r.successCount == |r.results| <==> forall i :: 0 <= i < |r.results| ==> r.results[i].success
    ensures r.successCount == SuccessCount(r.results)
    ensures registryUp ==> forall i :: 0 <= i < |r.results| ==>
      var x := Enabled(st.registry)[i];
      r.results[i] == ScanRepository(st.ws, st.registry, x.name, x.branch, ioFor(x.name)).result
  {
    FleetResultsPerRepository(st.ws, st.registry, ioFor);
    match ScanFleet(st.ws, if registryUp then Some(st.registry) else None, ioFor)
    case Err(_) => FleetResponse(StatusServerError, 0, [])
    case Ok(results) => FleetResponse(StatusOk, SuccessCount(results), results)
  }

  /** The body of an add request; each field may be missing. */
  datatype AddRequest = AddRequest(name: Option<string>, url: Option<string>, branch: Option<string>, enabled: Option<bool>)

  /** The scan an add starts without waiting for it. */
  datatype BackgroundScan = BackgroundScan(name: string, branch: string)

  /** The answer to an add: the status, the new record, its checkout, the scan started, and the state afterwards. */
  datatype AddResponse = AddResponse(
    status: nat,
    record: Option<RepositoryRecord>,
    path: Option<Path>,
    background: Option<BackgroundScan>,
    state: State)

  /** Best-effort removal of a checkout: a failed removal leaves the tree as it is. */
  function Cleanup(ws: Workspace, name: string, rmOk: bool): (w: Workspace)
    ensures rmOk ==> RepositoryPath(ws, name) !in w.paths
    ensures !rmOk || RepositoryPath(ws, name) !in ws.paths ==> w == ws
    ensures forall p :: p in ws.paths && !Under(p, RepositoryPath(ws, name)) ==> p in w.paths
    ensures w.base == ws.base && w.paths <= ws.paths
  {
    match DeleteRepository(ws, name, rmOk)
    case Ok(w) => w
    case Err(_) => ws
  }

  /** The branch of a new repository: the given one if non-empty, otherwise "main". */
  function RequestedBranch(branch: Option<string>): (b: string)
    ensures Present(branch) ==> b == branch.value
    ensures !Present(branch) ==> b == DefaultBranch
  {
    OrElse(branch, Some(DefaultBranch)).value
  }

  /** The document an add saves: the given fields, branch defaulted, enabled defaulting to true, cloned set. */
  function AddDraft(req: AddRequest): RepositoryDraft
    requires req.name.Some? && req.url.Some?
  {
    RepositoryDraft(req.name, req.url, Some(RequestedBranch(req.branch)), Some(req.enabled.GetOr(true)), Some(true))
  }

  /**
    `addRepository`: name and url are required (400); a registered name is a
    conflict (409) and nothing is cloned; otherwise the repository is cloned
    and its record saved, answering 201 and starting the first scan in the
    background. A failed query, clone or save answers 500 after a best-effort
    removal of the checkout.
  */
  function AddRepository(st: State, req: AddRequest, registryUp: bool, clone: CloneOutcomes, storeUp: bool, rmOk: bool): (r: AddResponse)
    ensures r.status in {StatusCreated, StatusBadRequest, StatusConflict, StatusServerError}
    ensures r.status == StatusBadRequest <==> !Present(req.name) || !Present(req.url)
    ensures r.status == StatusConflict <==>
      Present(req.name) && Present(req.url) && registryUp && FindByName(st.registry, req.name.value).Some?
    ensures r.status in {StatusBadRequest, StatusConflict} ==> r.state == st
    ensures r.status == StatusCreated <==>
      && Present(req.name) && Present(req.url) && registryUp
      && FindByName(st.registry, req.name.value).None?
      && CloneRepository(st.ws, req.url.value, req.name.value, RequestedBranch(req.branch), clone).result.Ok?
      && Insert(st.registry, AddDraft(req), storeUp).Ok?
    ensures r.status == StatusCreated ==>
      && r.state.registry == Insert(st.registry, AddDraft(req), storeUp).value
      && r.state.ws == CloneRepository(st.ws, req.url.value, req.name.value, RequestedBranch(req.branch), clone).ws
    ensures r.status != StatusCreated ==> r.state.registry == st.registry && r.record.None? && r.background.None?
    ensures r.status == StatusServerError && rmOk ==> RepositoryPath(st.ws, req.name.value) !in r.state.ws.paths
    ensures r.status == StatusServerError ==>
      forall p :: p in st.ws.paths && !Under(p, RepositoryPath(st.ws, req.name.value)) ==> p in r.state.ws.paths
    ensures r.status == StatusServerError && Present(req.url) ==>
      r.state.ws.paths <= st.ws.paths + CloneRepository(st.ws, req.url.value, req.name.value, RequestedBranch(req.branch), clone).ws.paths
    ensures r.status == StatusCreated ==>
      && r.record.Some?
      && r.state.registry == st.registry + [r.record.value]
      && r.record.value.name == Trim(req.name.value)
      && r.record.value.url == Trim(req.url.value)
      && r.record.value.branch == Trim(RequestedBranch(req.branch))
      && r.record.value.enabled == req.enabled.GetOr(true)
      && r.record.value.cloned
      && r.record.value.lastScan.None?
      && r.path == Some(RepositoryPath(st.ws, req.name.value))
      && IsCloned(r.state.ws, req.name.value)
      && r.background == Some(BackgroundScan(req.name.value, RequestedBranch(req.branch)))
  {
    if !Present(req.name) || !Present(req.url) then AddResponse(StatusBadRequest, None, None, None, st)
    else
      var name := req.name.value;
      if !registryUp then AddResponse(StatusServerError, None, None, None, st.(ws := Cleanup(st.ws, name, rmOk)))
      else if FindByName(st.registry, name).Some? then AddResponse(StatusConflict, None, None, None, st)
      else
        var branch := RequestedBranch(req.branch);
        var run := CloneRepository(st.ws, req.url.value, name, branch, clone);
        assert RepositoryPath(run.ws, name) == RepositoryPath(st.ws, name);
        match run.result
        case Err(_) => AddResponse(StatusServerError, None, None, None, st.(ws := Cleanup(run.ws, name, rmOk)))
        case Ok(path) =>
          match Insert(st.registry, AddDraft(req), storeUp)
          case Err(_) => AddResponse(StatusServerError, None, None, None, st.(ws := Cleanup(run.ws, name, rmOk)))
          case Ok(registry) =>
            AddResponse(StatusCreated, CastRepository(AddDraft(req)), Some(path), Some(BackgroundScan(name, branch)), State(registry, run.ws))
  }

  /**
    An add either succeeds or leaves the registry alone, so the registry stays
    uniquely named, and after a successful add the new record is the one found
    under the requested name.
  */
  lemma AddKeepsRegistryUnique(st: State, req: AddRequest, registryUp: bool, clone: CloneOutcomes, storeUp: bool, rmOk: bool)
    requires UniqueNames(st.registry)
    ensures var r := AddRepository(st, req, registryUp, clone, storeUp, rmOk);
      && UniqueNames(r.state.registry)
      && (r.status == StatusCreated ==> FindByName(r.state.registry, req.name.value) == r.record)
  {
    var r := AddRepository(st, req, registryUp, clone, storeUp, rmOk);
    if r.status == StatusCreated {
      assert NameFree(st.registry, Trim(req.name.value));
      InsertKeepsUnique(st.registry, AddDraft(req), storeUp);
    }
  }

  /** Adding a name a second time is a conflict and changes nothing. */
  lemma AddTwiceConflicts(st: State, req: AddRequest, clone: CloneOutcomes, storeUp: bool, rmOk: bool, clone2: CloneOutcomes, storeUp2: bool, rmOk2: bool)
    requires UniqueNames(st.registry)
    ensures var r := AddRepository(st, req, true, clone, storeUp, rmOk);
      r.status == StatusCreated ==>
        AddRepository(r.state, req, true, clone2, storeUp2, rmOk2) == AddResponse(StatusConflict, None, None, None, r.state)
  {
    AddKeepsRegistryUnique(st, req, true, clone, storeUp, rmOk);
  }

  /** The answer to a removal: the status and the state afterwards. */
  datatype RemoveResponse = RemoveResponse(status: nat, state: State)

  /**
    `deleteRepository`: the name is required (400); an unknown name answers
    404 and changes nothing; otherwise the record is deleted first and the
    checkout second. If removing the checkout fails the answer is 500 and the
    record stays deleted.
  */
  function RemoveRepository(st: State, name: string, registryUp: bool, rmOk: bool): (r: RemoveResponse)
    ensures name == "" ==> r == RemoveResponse(StatusBadRequest, st)
    ensures name != "" && !registryUp ==> r == RemoveResponse(StatusServerError, st)
    ensures name != "" && registryUp ==> (r.status == StatusNotFound <==> FindByName(st.registry, name).None?)
    ensures r.status == StatusNotFound ==> r.state == st
    ensures r.status == StatusOk <==>
      name != "" && registryUp && FindByName(st.registry, name).Some? && (RepositoryPath(st.ws, name) !in st.ws.paths || rmOk)
    ensures r.status == StatusOk ==> RepositoryPath(st.ws, name) !in r.state.ws.paths
    ensures r.status == StatusOk ==> r.state.ws.paths <= st.ws.paths
    ensures r.status == StatusOk ==>
      forall p :: p in st.ws.paths && !Under(p, RepositoryPath(st.ws, name)) ==> p in r.state.ws.paths
    ensures r.status == StatusServerError ==> r.state.ws == st.ws
    ensures r.status in {StatusOk, StatusServerError} && name != "" && registryUp ==>
      r.state.registry == DeleteByName(st.registry, name).0
    ensures r.state.ws.base == st.ws.base
  {
    if name == "" then RemoveResponse(StatusBadRequest, st)
    else if !registryUp then RemoveResponse(StatusServerError, st)
    else
      var (registry, found) := DeleteByName(st.registry, name);
      if found.None? then RemoveResponse(StatusNotFound, st)
      else
        match DeleteRepository(st.ws, name, rmOk)
        case Err(_) => RemoveResponse(StatusServerError, State(registry, st.ws))
        case Ok(w) => RemoveResponse(StatusOk, State(registry, w))
  }

  /**
    After a successful removal the name is neither registered nor cloned, and
    removing it again answers 404.
  */
  lemma RemoveThenNotFound(st: State, name: string, rmOk: bool, rmOk2: bool)
    requires UniqueNames(st.registry) && PrefixClosed(st.ws.paths)
    requires RemoveRepository(st, name, true, rmOk).status == StatusOk
    ensures var st2 := RemoveRepository(st, name, true, rmOk).state;
      && FindByName(st2.registry, name).None?
      && !IsCloned(st2.ws, name)
      && RemoveRepository(st2, name, true, rmOk2) == RemoveResponse(StatusNotFound, st2)
  {
    DeleteKeepsUnique(st.registry, name);
    DeleteKeepsShape(st.ws, name, rmOk);
  }
}

=== FILE: scan_job.dfy ===
/**
  The scheduler for the nightly fleet scan: a job that is either stopped or
  holds one scheduled task. Whether an expression is a valid schedule is an
  input, as is the clock.
*/
module ScanJob {
  import opened Wrappers
  import opened RepositoryTypes
  import opened RepositorySchema
  import opened GitService
  import opened SnykService
  import opened ScanController

  /** Every day at 02:00. */
  const DefaultExpression: string := "0 2 * * *"

  /** The time zone the schedule is read in. */
  const ScheduleTimezone: string := "America/Argentina/Buenos_Aires"

  /** A scheduled task: its expression and time zone. */
  datatype ScheduledTask = ScheduledTask(expression: string, timezone: string)

  /** The job: no task while stopped, one task while running. */
  datatype Job = Job(task: Option<ScheduledTask>)

  /** `isRunning`: a task is held. */
  predicate IsRunning(job: Job) {
    job.task.Some?
  }

  /**
    `start`: a running job is left alone; an invalid expression leaves the job
    stopped; otherwise the job holds a task for the expression.
  */
  function Start(job: Job, expression: string, isValid: string -> bool): (j: Job)
    ensures IsRunning(job) ==> j == job
    ensures !IsRunning(job) && !isValid(expression) ==> j == job
    ensures !IsRunning(job) && isValid(expression) ==> j.task == Some(ScheduledTask(expression, ScheduleTimezone))
    ensures IsRunning(j) <==> IsRunning(job) || isValid(expression)
  {
    if job.task.Some? then job
    else if !isValid(expression) then job
    else Job(Some(ScheduledTask(expression, ScheduleTimezone)))
  }

  /** `start()` with no argument: the default expression. */
  function StartDefault(job: Job, isValid: string -> bool): (j: Job)
    ensures j == Start(job, DefaultExpression, isValid)
    ensures !IsRunning(job) && isValid(DefaultExpression) ==> j.task == Some(ScheduledTask("0 2 * * *", ScheduleTimezone))
  {
    Start(job, DefaultExpression, isValid)
  }

  /** `stop`: drops the task; a stopped job is left alone. */
  function Stop(job: Job): (j: Job)
    ensures !IsRunning(j)
    ensures !IsRunning(job) ==> j == job
  {
    Job(None)
  }

  /**
    `getNextExecution`: nothing while stopped; while running, the clock
    reading at the moment of the call (the source reports the current time,
    not the schedule's next firing).
  */
  function NextExecution(job: Job, now: Timestamp): (r: Option<Timestamp>)
    ensures r.Some? <==> IsRunning(job)
    ensures r.Some? ==> r.value == now
  {
    if job.task.Some? then Some(now) else None
  }

  /** Starting a running job again keeps the first task, whatever the second expression. */
  lemma StartIdempotent(job: Job, e1: string, e2: string, isValid: string -> bool)
    ensures var j := Start(job, e1, isValid);
      IsRunning(j) ==> Start(j, e2, isValid) == j
  {
  }

  /** Stopping is idempotent, and a start followed by a stop returns to the stopped job. */
  lemma StopAfterStart(job: Job, e: string, isValid: string -> bool)
    ensures Stop(Stop(job)) == Stop(job)
    ensures Stop(Start(job, e, isValid)) == Job(None)
    ensures !IsRunning(job) ==> Stop(Start(job, e, isValid)) == job
  {
  }

  /**
    Over the job's life cycle the next execution is present exactly while a
    task is held: never after a stop, and right after a successful start.
  */
  lemma NextExecutionFollowsLifecycle(job: Job, e: string, isValid: string -> bool, now: Timestamp)
    ensures NextExecution(Stop(job), now).None?
    ensures NextExecution(Start(job, e, isValid), now).Some? <==> IsRunning(job) || isValid(e)
    ensures isValid(e) ==> NextExecution(Start(Stop(job), e, isValid), now) == Some(now)
    ensures NextExecution(Stop(Start(job, e, isValid)), now).None?
  {
  }

  /** What one scheduled run logs: the success count out of all results, or the caught error. */
  datatype RunLog = Finished(successes: nat, total: nat) | Caught

  /**
    The scheduled callback: runs the fleet scan and catches every error it
    raises, so no run escapes with an error.
  */
  function ScheduledRun(fleet: Result<seq<ScanResult>, FleetError>): (log: RunLog)
    ensures fleet.Err? <==> log.Caught?
    ensures fleet.Ok? ==> log.total == |fleet.value| && log.successes == SuccessCount(fleet.value)
    ensures log.Finished? ==> log.successes <= log.total
  {
    match fleet
    case Err(_) => Caught
    case Ok(results) => Finished(SuccessCount(results), |results|)
  }

  /** A scheduled run over a readable registry completes with one result per enabled repository. */
  lemma ScheduledRunCoversFleet(ws: Workspace, reg: Registry, ioFor: string -> ScanIo)
    ensures var log := ScheduledRun(ScanFleet(ws, Some(reg), ioFor));
      log.Finished? && log.total == |Enabled(reg)|
  {
    FleetResultsPerRepository(ws, reg, ioFor);
  }
}

=== FILE: snyk_schema.dfy ===
/**
  The stored report document and its schema: which fields are required, which
  values the severity may take, and which defaults fill missing fields. Casting
  a document either yields the stored form or fails validation, in which case
  the store rejects the write.
*/
module SnykSchema {
  import opened Wrappers
  import opened Strings
  import opened SnykTypes

  /** A vulnerability sub-document as handed to the schema, before validation. */
  datatype VulnerabilityInput = VulnerabilityInput(
    snykId: Option<string>,
    title: Option<string>,
    severity: Option<string>,
    packageName: Option<string>,
    version: Option<string>,
    fixedIn: Option<seq<string>>,
    from: Option<seq<string>>)

  /** A vulnerability sub-document as stored. */
  datatype StoredVulnerability = StoredVulnerability(
    snykId: string,
    title: string,
    severity: Severity,
    packageName: string,
    version: string,
    fixedIn: seq<string>,
    from: seq<string>)

  /** The summary counters as handed to the schema; each may be missing. */
  datatype SummaryInput = SummaryInput(
    total: Option<nat>,
    critical: Option<nat>,
    high: Option<nat>,
    medium: Option<nat>,
    low: Option<nat>)

  /** A report document as handed to the schema, before validation. */
  datatype ReportInput = ReportInput(
    projectNames: Option<seq<string>>,
    isClean: Option<bool>,
    summary: SummaryInput,
    vulnerabilities: seq<VulnerabilityInput>,
    rawData: Payload)

  /** A report document as stored (the store's own timestamps are left abstract). */
  datatype StoredReport = StoredReport(
    projectNames: seq<string>,
    isClean: bool,
    summary: Summary,
    vulnerabilities: seq<StoredVulnerability>,
    rawData: Payload)

  /**
    The vulnerability sub-schema accepts a document iff snykId, title,
    packageName and version are present, non-empty strings (the store's
    `required` check on a string rejects ""), and severity is one of the four
    typed labels.
  */
  predicate ValidVulnerability(v: VulnerabilityInput) {
    && Present(v.snykId)
    && Present(v.title)
    && v.severity.Some? && v.severity.value in SeverityLabels
    && Present(v.packageName)
    && Present(v.version)
  }

  /** Casts one vulnerability sub-document; `fixedIn` and `from` default to empty lists. */
  function CastVulnerability(v: VulnerabilityInput): (r: Option<StoredVulnerability>)
    ensures r.Some? <==> ValidVulnerability(v)
    ensures r.Some? ==>
      && r.value.snykId == v.snykId.value
      && r.value.title == v.title.value
      && r.value.severity.Label() == v.severity.value
      && r.value.packageName == v.packageName.value
      && r.value.version == v.version.value
      && r.value.fixedIn == v.fixedIn.GetOr([])
      && r.value.from == v.from.GetOr([])
  {
    if !ValidVulnerability(v) then None
    else
      Some(StoredVulnerability(
        v.snykId.value,
        v.title.value,
        ParseSeverity(v.severity.value).value,
        v.packageName.value,
        v.version.value,
        v.fixedIn.GetOr([]),
        v.from.GetOr([])))
  }

  /** Casts a list of sub-documents; one invalid entry rejects the whole list. */
  function CastVulnerabilities(vs: seq<VulnerabilityInput>): (r: Option<seq<StoredVulnerability>>)
    ensures r.Some? <==> forall i :: 0 <= i < |vs| ==> ValidVulnerability(vs[i])
    ensures r.Some? ==> |r.value| == |vs|
    ensures r.Some? ==> forall i :: 0 <= i < |vs| ==> CastVulnerability(vs[i]) == Some(r.value[i])
  {
    if |vs| == 0 then Some([])
    else
      var head := CastVulnerability(vs[0]);
      var tail := CastVulnerabilities(vs[1..]);
      if head.None? || tail.None? then
        assert head.None? ==> !ValidVulnerability(vs[0]);
        assert tail.None? ==> exists i :: 0 <= i < |vs[1..]| && !ValidVulnerability(vs[1..][i]);
        None
      else
        Some([head.value] + tail.value)
  }

  /** The summary counters with the schema's default of 0 for each missing one. */
  function SummaryWithDefaults(s: SummaryInput): (r: Summary)
    ensures s.total.Some? ==> r.total == s.total.value
    ensures s.total.None? ==> r.total == 0
    ensures s.critical.Some? ==> r.critical == s.critical.value
    ensures s.critical.None? ==> r.critical == 0
    ensures s.high.Some? ==> r.high == s.high.value
    ensures s.high.None? ==> r.high == 0
    ensures s.medium.Some? ==> r.medium == s.medium.value
    ensures s.medium.None? ==> r.medium == 0
    ensures s.low.Some? ==> r.low == s.low.value
    ensures s.low.None? ==> r.low == 0
  {
    Summary(s.total.GetOr(0), s.critical.GetOr(0), s.high.GetOr(0), s.medium.GetOr(0), s.low.GetOr(0))
  }

  /**
    Validates and casts a report document: projectNames and isClean are
    required, every vulnerability must be valid, the counters take their
    defaults and the raw payload is kept verbatim.
  */
  function CastReport(d: ReportInput): (r: Option<StoredReport>)
    ensures r.Some? <==>
      && d.projectNames.Some?
      && d.isClean.Some?
      && forall i :: 0 <= i < |d.vulnerabilities| ==> ValidVulnerability(d.vulnerabilities[i])
    ensures r.Some? ==>
      && r.value.projectNames == d.projectNames.value
      && r.value.isClean == d.isClean.value
      && r.value.summary == SummaryWithDefaults(d.summary)
      && |r.value.vulnerabilities| == |d.vulnerabilities|
      && (forall i :: 0 <= i < |d.vulnerabilities| ==>
            CastVulnerability(d.vulnerabilities[i]) == Some(r.value.vulnerabilities[i]))
      && r.value.rawData == d.rawData
  {
    var vs := CastVulnerabilities(d.vulnerabilities);
    if d.projectNames.None? || d.isClean.None? || vs.None? then None
    else Some(StoredReport(d.projectNames.value, d.isClean.value, SummaryWithDefaults(d.summary), vs.value, d.rawData))
  }
}

=== FILE: snyk_service.dfy ===
/**
  The scan step for one repository and for the whole fleet. Every external
  effect is an input (command outcomes, the process environment, the JSON
  parser, the store) and every effect the step has on the outside world is
  recorded, in order, so that the short-circuit chain can be stated.
*/
module SnykService {
  import opened Wrappers
  import opened Strings
  import opened SnykTypes
  import opened RepositoryTypes
  import opened RepositorySchema
  import opened GitService
  import opened ReportService
  import ReportModel

  /** The dependency-restore commands. */
  datatype RestoreCommand = NpmInstall | DotnetRestore

  /** The names directly inside `dir`, as a directory listing returns them. */
  function Children(ws: Workspace, dir: Path): set<string> {
    set p | p in ws.paths && |p| == |dir| + 1 && p[..|dir|] == dir :: p[|dir|]
  }

  /** A Node.js project: `package.json` exists in the checkout. */
  predicate HasPackageJson(ws: Workspace, dir: Path) {
    dir + ["package.json"] in ws.paths
  }

  /** A .NET project: some entry of the checkout ends with `.sln` or `.csproj`. */
  predicate HasDotnetProject(ws: Workspace, dir: Path) {
    exists f :: f in Children(ws, dir) && (EndsWith(f, ".sln") || EndsWith(f, ".csproj"))
  }

  /**
    `restoreDependencies`: the restore commands it runs. `npm install` runs
    iff `package.json` exists, `dotnet restore` iff a solution or project file
    exists. It never fails; since one handler covers both steps, a failing npm
    step also skips the dotnet step. The dotnet step's own outcome changes
    nothing, as no step follows it.
  */
  function RestoreDependencies(ws: Workspace, dir: Path, npm: CommandOutcome): (ran: seq<RestoreCommand>)
    ensures NpmInstall in ran <==> HasPackageJson(ws, dir)
    ensures DotnetRestore in ran <==> HasDotnetProject(ws, dir) && !(HasPackageJson(ws, dir) && npm.Errored?)
    ensures |ran| <= 2 && (|ran| == 2 ==> ran == [NpmInstall, DotnetRestore])
  {
    var node := if HasPackageJson(ws, dir) then [NpmInstall] else [];
    if HasPackageJson(ws, dir) && npm.Errored? then node
    else node + (if HasDotnetProject(ws, dir) then [DotnetRestore] else [])
  }

  /** `process.env[key] || ""`. */
  function EnvOr(env: map<string, string>, key: string): (v: string)
    ensures key in env ==> v == env[key]
    ensures key !in env ==> v == ""
  {
    if key in env then env[key] else ""
  }

  /** The variables the scanner receives, and no others. */
  const ScannerEnvKeys: set<string> := {"SNYK_TOKEN", "PATH", "HOME", "APPDATA", "LOCALAPPDATA"}

  /**
    The scanner's explicit environment: the token, and PATH, HOME (falling
    back to USERPROFILE), APPDATA and LOCALAPPDATA copied from the process
    environment, each empty when unset.
  */
  function ScannerEnvironment(token: string, env: map<string, string>): (e: map<string, string>)
    ensures e.Keys == ScannerEnvKeys
    ensures e["SNYK_TOKEN"] == token
    ensures e["PATH"] == EnvOr(env, "PATH")
    ensures Truthy(EnvOr(env, "HOME")) ==> e["HOME"] == env["HOME"]
    ensures !Truthy(EnvOr(env, "HOME")) ==> e["HOME"] == EnvOr(env, "USERPROFILE")
    ensures e["APPDATA"] == EnvOr(env, "APPDATA")
    ensures e["LOCALAPPDATA"] == EnvOr(env, "LOCALAPPDATA")
  {
    var home := if Truthy(EnvOr(env, "HOME")) then EnvOr(env, "HOME") else EnvOr(env, "USERPROFILE");
    map[
      "SNYK_TOKEN" := token,
      "PATH" := EnvOr(env, "PATH"),
      "HOME" := home,
      "APPDATA" := EnvOr(env, "APPDATA"),
      "LOCALAPPDATA" := EnvOr(env, "LOCALAPPDATA")]
  }

  /** How the scanner process ended: exit code 0 with its output, or an error carrying any output. */
  datatype ExecOutcome = ExitedZero(stdout: string) | ExecFailed(output: Option<string>)

  /**
    The scanner output to parse. A non-zero exit that still produced output
    is the normal "issues found" case and counts as success; a non-zero exit
    with empty or absent output is a failure (`None`).
  */
  function ScannerStdout(o: ExecOutcome): (r: Option<string>)
    ensures o.ExitedZero? ==> r == Some(o.stdout)
    ensures o.ExecFailed? ==> (r.Some? <==> Present(o.output))
    ensures o.ExecFailed? && r.Some? ==> r == o.output
  {
    match o
    case ExitedZero(out) => Some(out)
    case ExecFailed(out) => if Present(out) then out else None
  }

  /** `JSON.parse` of the output, with the parser as an input; empty text never parses. */
  function ParseOutput(parse: string -> Option<Payload>, stdout: string): (r: Option<Payload>)
    ensures stdout == "" ==> r.None?
    ensures stdout != "" ==> r == parse(stdout)
  {
    if stdout == "" then None else parse(stdout)
  }

  /**
    The scanner's own rejection of the run: an object with `ok === false` and
    a truthy `error`. An array payload has no `ok` field and is never a rejection.
  */
  function Rejection(p: Payload): (r: Option<string>)
    ensures r.Some? <==> p.Single? && !p.project.ok && Present(p.project.error)
    ensures r.Some? ==> r == p.project.error
  {
    match p
    case Single(pr) => if !pr.ok && Present(pr.error) then pr.error else None
    case Many(_) => None
  }

  /** The outside world as one scan sees it. */
  datatype ScanIo = ScanIo(
    env: map<string, string>,
    update: UpdateOutcomes,
    npm: CommandOutcome,
    scanner: ExecOutcome,
    parse: string -> Option<Payload>,
    storeUp: bool,
    reportId: string,
    lastScanOk: bool,
    now: Timestamp)

  /** What a scan does to the outside world. */
  datatype ScanEffect =
    | Git(git: GitCommand)
    | Restore(restore: RestoreCommand)
    | ScannerRun(dir: Path, env: map<string, string>)
    | Report(report: ReportEffect)
    | LastScanRecorded(name: string)

  /** The stage of an effect; a scan's effects occur in stage order. */
  function Stage(e: ScanEffect): nat {
    match e
    case Git(_) => 0
    case Restore(_) => 1
    case ScannerRun(_, _) => 2
    case Report(Stored(_)) => 3
    case Report(Sent(_)) => 4
    case LastScanRecorded(_) => 5
  }

  /** The effects occur in stage order. */
  predicate InStageOrder(effects: seq<ScanEffect>) {
    forall i, j :: 0 <= i < j < |effects| ==> Stage(effects[i]) <= Stage(effects[j])
  }

  /** One scan: the result it returns, its effects in order, and the registry afterwards. */
  datatype ScanRun = ScanRun(result: ScanResult, effects: seq<ScanEffect>, registry: Registry)

  /** Concatenating two stage-ordered runs, the first ending no later than the second starts. */
  lemma StageOrderAppend(a: seq<ScanEffect>, b: seq<ScanEffect>, k: nat)
    requires InStageOrder(a) && InStageOrder(b)
    requires forall e :: e in a ==> Stage(e) <= k
    requires forall e :: e in b ==> Stage(e) >= k
    ensures InStageOrder(a + b)
  {
    var c := a + b;
    forall i, j | 0 <= i < j < |c| ensures Stage(c[i]) <= Stage(c[j]) {
      if j < |a| {
        assert c[i] == a[i] && c[j] == a[j];
      } else if i >= |a| {
        assert c[i] == b[i - |a|] && c[j] == b[j - |a|];
      } else {
        assert c[i] == a[i] && a[i] in a;
        assert c[j] == b[j - |a|] && b[j - |a|] in b;
      }
    }
  }

  /** The effects of the checkout update and the restore, in order. */
  function PrepareEffects(ws: Workspace, name: string, branch: string, io: ScanIo): (effs: seq<ScanEffect>)
    ensures InStageOrder(effs)
    ensures forall e :: e in effs ==> e.Git? || e.Restore?
  {
    var git := UpdateRepository(ws, name, branch, io.update);
    var restore := RestoreDependencies(ws, RepositoryPath(ws, name), io.npm);
    var a := seq(|git|, i requires 0 <= i < |git| => Git(git[i]));
    var b := seq(|restore|, i requires 0 <= i < |restore| => Restore(restore[i]));
    StageOrderAppend(a, b, 1);
    a + b
  }

  /** The effects so far followed by the report effects of a save (`sent` is its notification), still in stage order. */
  function Reported(launched: seq<ScanEffect>, id: string, sent: Option<Notification>): (effs: seq<ScanEffect>)
    requires InStageOrder(launched) && forall e :: e in launched ==> Stage(e) <= 2
    ensures InStageOrder(effs) && forall e :: e in effs ==> Stage(e) <= 4
    ensures |launched| <= |effs| && effs[..|launched|] == launched
    ensures sent.None? ==> effs == launched
    ensures sent.Some? ==> effs == launched + [Report(Stored(id)), Report(Sent(sent.value))]
  {
    match sent
    case None => launched
    case Some(n) =>
      var tail := [Report(Stored(id)), Report(Sent(n))];
      StageOrderAppend(launched, tail, 3);
      launched + tail
  }

  /**
    The part of a scan after the scanner's output has been parsed, vetted and
    processed (`processed`): record the scan time if the report was saved.
    `launched` are the effects before processing.
  */
  function FinishScan(reg: Registry, name: string, processed: Processed, io: ScanIo, launched: seq<ScanEffect>): (run: ScanRun)
    requires InStageOrder(launched) && forall e :: e in launched ==> Stage(e) <= 2
    requires processed.saved.None? ==> processed.effects == []
    requires processed.saved.Some? ==> |processed.effects| == 2 && processed.effects[0] == Stored(io.reportId) && processed.effects[1].Sent?
    ensures run.result.repository == name && WellFormed(run.result)
    ensures InStageOrder(run.effects)
    ensures |launched| <= |run.effects| && run.effects[..|launched|] == launched
    ensures run.result.success ==> run.result.reportId == Some(io.reportId) && Report(Stored(io.reportId)) in run.effects
    ensures run.registry == reg || (run.result.success && run.registry == RecordLastScan(reg, name, io.now))
    ensures run.result.success <==> LastScanRecorded(name) in run.effects
    ensures !run.result.success ==> run.result.error == Some(DatabaseSaveFailed) || run.result.error == Some(LastScanNotRecorded)
    ensures run.result.error == Some(DatabaseSaveFailed) <==> processed.saved.None?
    ensures Report(Stored(io.reportId)) in run.effects <==> processed.saved.Some?
    ensures processed.saved.Some? ==> Report(processed.effects[1]) in run.effects
    ensures processed.saved.None? ==> run.effects == launched
  {
    var reported := Reported(launched, io.reportId, if processed.saved.Some? then Some(processed.effects[1].notification) else None);
    assert LastScanRecorded(name) !in reported by {
      forall e | e in reported ensures Stage(e) <= 4 { }
    }
    if processed.saved.None? then
      assert Report(Stored(io.reportId)) !in reported by {
        forall e | e in reported ensures Stage(e) <= 2 { }
      }
      ScanRun(Failed(name, DatabaseSaveFailed), reported, reg)
    else if !io.lastScanOk then
      assert reported[|launched|] == Report(Stored(io.reportId));
      ScanRun(Failed(name, LastScanNotRecorded), reported, reg)
    else
      StageOrderAppend(reported, [LastScanRecorded(name)], 5);
      var effects := reported + [LastScanRecorded(name)];
      assert effects[|launched|] == Report(Stored(io.reportId));
      assert effects[..|launched|] == reported[..|launched|];
      ScanRun(Succeeded(name, io.reportId), effects, RecordLastScan(reg, name, io.now))
  }

  /**
    The part of a scan after the scanner has been launched (`launched` are
    the effects so far): take its output, parse and vet it, then process the
    report and record the scan time.
  */
  function AfterLaunch(reg: Registry, name: string, io: ScanIo, launched: seq<ScanEffect>): (run: ScanRun)
    requires InStageOrder(launched) && forall e :: e in launched ==> Stage(e) <= 2
    ensures run.result.repository == name && WellFormed(run.result)
    ensures InStageOrder(run.effects)
    ensures |launched| <= |run.effects| && run.effects[..|launched|] == launched
    ensures run.result.success ==> run.result.reportId == Some(io.reportId) && Report(Stored(io.reportId)) in run.effects
    ensures run.registry == reg || (run.result.success && run.registry == RecordLastScan(reg, name, io.now))
    ensures run.result.success <==> LastScanRecorded(name) in run.effects
    ensures !run.result.success && run.result.error != Some(LastScanNotRecorded) ==> run.effects == launched
    ensures run.result.error == Some(LastScanNotRecorded) ==> Report(Stored(io.reportId)) in run.effects
  {
    assert launched[..|launched|] == launched;
    assert Stage(LastScanRecorded(name)) > 2;
    match ScannerStdout(io.scanner)
    case None => ScanRun(Failed(name, ScannerFailed), launched, reg)
    case Some(out) =>
      match ParseOutput(io.parse, out)
      case None => ScanRun(Failed(name, UnparseableOutput), launched, reg)
      case Some(payload) =>
        match Rejection(payload)
        case Some(message) => ScanRun(Failed(name, ScannerRejected(message)), launched, reg)
        case None => FinishScan(reg, name, ProcessSnykPayload(payload, io.storeUp, io.reportId), io, launched)
  }

  /**
    `scanRepository`: check the checkout, update it, restore dependencies,
    require the token, run the scanner, parse and vet its output, process the
    report, then record the scan time. Every failure ends the chain and yields
    a failed result; nothing escapes as an error.
  */
  function ScanRepository(ws: Workspace, reg: Registry, name: string, branch: string, io: ScanIo): (run: ScanRun)
    ensures run.result.repository == name && WellFormed(run.result)
    ensures InStageOrder(run.effects)
    ensures !IsCloned(ws, name) ==> run.result == Failed(name, NotCloned) && run.effects == [] && run.registry == reg
    ensures run.result.success ==> run.result.reportId == Some(io.reportId) && Report(Stored(io.reportId)) in run.effects
    ensures run.registry == reg || (run.result.success && run.registry == RecordLastScan(reg, name, io.now))
    ensures run.result.success <==> LastScanRecorded(name) in run.effects
    ensures IsCloned(ws, name) && Truthy(EnvOr(io.env, "SNYK_TOKEN")) ==>
      var pre := PrepareEffects(ws, name, branch, io);
      && |pre| < |run.effects|
      && run.effects[..|pre| + 1] == pre + [ScannerRun(RepositoryPath(ws, name), ScannerEnvironment(EnvOr(io.env, "SNYK_TOKEN"), io.env))]
    ensures !run.result.success && run.result.error != Some(LastScanNotRecorded) ==>
      forall e :: e in run.effects ==> !e.Report?
    ensures run.result.error == Some(LastScanNotRecorded) ==> Report(Stored(io.reportId)) in run.effects
  {
    if !IsCloned(ws, name) then ScanRun(Failed(name, NotCloned), [], reg)
    else
      var prepared := PrepareEffects(ws, name, branch, io);
      var token := EnvOr(io.env, "SNYK_TOKEN");
      if !Truthy(token) then ScanRun(Failed(name, MissingToken), prepared, reg)
      else
        LaunchScanner(ws, reg, name, io, prepared)
  }

  /** The token is set: launch the scanner in the checkout after the `prepared` update and restore, then finish the scan. */
  function LaunchScanner(ws: Workspace, reg: Registry, name: string, io: ScanIo, prepared: seq<ScanEffect>): (run: ScanRun)
    requires InStageOrder(prepared) && forall e :: e in prepared ==> e.Git? || e.Restore?
    requires Truthy(EnvOr(io.env, "SNYK_TOKEN"))
    ensures run.result.repository == name && WellFormed(run.result)
    ensures InStageOrder(run.effects)
    ensures run.result.success ==> run.result.reportId == Some(io.reportId) && Report(Stored(io.reportId)) in run.effects
    ensures run.registry == reg || (run.result.success && run.registry == RecordLastScan(reg, name, io.now))
    ensures run.result.success <==> LastScanRecorded(name) in run.effects
    ensures |prepared| < |run.effects|
      && run.effects[..|prepared| + 1] == prepared + [ScannerRun(RepositoryPath(ws, name), ScannerEnvironment(EnvOr(io.env, "SNYK_TOKEN"), io.env))]
    ensures !run.result.success && run.result.error != Some(LastScanNotRecorded) ==>
      forall e :: e in run.effects ==> !e.Report?
    ensures run.result.error == Some(LastScanNotRecorded) ==> Report(Stored(io.reportId)) in run.effects
  {
    var launch := ScannerRun(RepositoryPath(ws, name), ScannerEnvironment(EnvOr(io.env, "SNYK_TOKEN"), io.env));
    StageOrderAppend(prepared, [launch], 2);
    LaunchedHasNoReport(prepared, launch);
    AfterLaunch(reg, name, io, prepared + [launch])
  }

  /** Appending the scanner launch to the update and restore effects adds no report effect. */
  lemma LaunchedHasNoReport(prepared: seq<ScanEffect>, launch: ScanEffect)
    requires forall e :: e in prepared ==> e.Git? || e.Restore?
    requires launch.ScannerRun?
    ensures forall e :: e in prepared + [launch] ==> !e.Report?
  {
  }

  /** A cloned checkout, a token, and the scanner's output: the part of a scan before the report. */
  predicate ReachesReport(ws: Workspace, name: string, io: ScanIo) {
    && IsCloned(ws, name)
    && Truthy(EnvOr(io.env, "SNYK_TOKEN"))
    && ScannerStdout(io.scanner).Some?
    && ParseOutput(io.parse, ScannerStdout(io.scanner).value).Some?
    && Rejection(ParseOutput(io.parse, ScannerStdout(io.scanner).value).value).None?
  }

  /** Without a token the scan fails after the update and restore, and the scanner never runs. */
  lemma MissingTokenStopsBeforeScanner(ws: Workspace, reg: Registry, name: string, branch: string, io: ScanIo)
    requires IsCloned(ws, name) && !Truthy(EnvOr(io.env, "SNYK_TOKEN"))
    ensures var run := ScanRepository(ws, reg, name, branch, io);
      && run.result == Failed(name, MissingToken)
      && run.effects == PrepareEffects(ws, name, branch, io)
      && |run.effects| >= 1 && run.effects[0] == Git(Fetch(RepositoryPath(ws, name)))
      && forall e :: e in run.effects ==> !e.ScannerRun? && !e.Report?
  {
    var git := UpdateRepository(ws, name, branch, io.update);
    assert |git| >= 1 && git[0] == Fetch(RepositoryPath(ws, name));
  }

  /**
    A scanner that exits non-zero but prints a valid, non-rejecting payload
    is a successful scan when the report is stored and the scan time recorded.
  */
  lemma IssuesFoundIsSuccess(ws: Workspace, reg: Registry, name: string, branch: string, io: ScanIo, out: string)
    requires IsCloned(ws, name) && Truthy(EnvOr(io.env, "SNYK_TOKEN"))
    requires io.scanner == ExecFailed(Some(out)) && out != ""
    requires io.parse(out).Some? && Rejection(io.parse(out).value).None?
    requires io.storeUp && io.lastScanOk
    requires forall v :: v in ReportModel.GetAllVulnerabilities(io.parse(out).value) ==> Storable(v)
    ensures ScanRepository(ws, reg, name, branch, io).result == Succeeded(name, io.reportId)
  {
  }

  /**
    Once the scanner's output parses to a payload it does not reject, the scan
    succeeds iff the report is saved (the store is up and every entry is
    storable) and the scan time is recorded; success names the stored report.
    This covers a clean exit and an "issues found" exit alike.
  */
  lemma ReportedScanOutcome(ws: Workspace, reg: Registry, name: string, branch: string, io: ScanIo)
    requires ReachesReport(ws, name, io)
    ensures var run := ScanRepository(ws, reg, name, branch, io);
      var payload := ParseOutput(io.parse, ScannerStdout(io.scanner).value).value;
      && (run.result.success <==>
           io.storeUp && io.lastScanOk && forall v :: v in ReportModel.GetAllVulnerabilities(payload) ==> Storable(v))
      && (run.result.success ==> run.result == Succeeded(name, io.reportId) && run.registry == RecordLastScan(reg, name, io.now))
      && (io.storeUp && (forall v :: v in ReportModel.GetAllVulnerabilities(payload) ==> Storable(v)) ==>
            Report(Sent(Notify(ReportModel.Summarize(payload)))) in run.effects)
  {
  }

  /**
    A scanner that fails with empty or absent output is a failure, and no
    report is stored or announced.
  */
  lemma EmptyOutputIsFailure(ws: Workspace, reg: Registry, name: string, branch: string, io: ScanIo)
    requires IsCloned(ws, name) && Truthy(EnvOr(io.env, "SNYK_TOKEN"))
    requires io.scanner.ExecFailed? && !Present(io.scanner.output)
    ensures var run := ScanRepository(ws, reg, name, branch, io);
      && run.result == Failed(name, ScannerFailed)
      && (forall e :: e in run.effects ==> !e.Report?)
      && run.registry == reg
  {
  }

  /**
    A report is stored only by a scan that got through every earlier gate;
    the result is then a success unless recording the scan time failed. No
    notification goes out without the report having been stored first.
  */
  lemma StoredOnlyAfterEveryGate(ws: Workspace, reg: Registry, name: string, branch: string, io: ScanIo, id: string)
    ensures var run := ScanRepository(ws, reg, name, branch, io);
      Report(Stored(id)) in run.effects ==>
        && ReachesReport(ws, name, io)
        && (run.result.success || run.result.error == Some(LastScanNotRecorded))
    ensures var run := ScanRepository(ws, reg, name, branch, io);
      forall n :: Report(Sent(n)) in run.effects ==> Report(Stored(io.reportId)) in run.effects
  {
  }

  /** How one fleet task settled: with its scan result, or rejected with an optional reason. */
  datatype Settled = Fulfilled(value: ScanResult) | Rejected(reason: Option<string>)

  /** The result reported for one task: its own result, or a synthetic failure naming the repository. */
  function SettledResult(repo: RepositoryRecord, s: Settled): (r: ScanResult)
    ensures s.Fulfilled? ==> r == s.value
    ensures s.Rejected? ==> !r.success && WellFormed(r)
    ensures s.Rejected? ==> r.repository == (if repo.name != "" then repo.name else "Unknown")
    ensures s.Rejected? ==> r.error == Some(TaskRejected(if Present(s.reason) then s.reason else None))
  {
    match s
    case Fulfilled(v) => v
    case Rejected(reason) =>
      Failed(if repo.name != "" then repo.name else "Unknown", TaskRejected(if Present(reason) then reason else None))
  }

  /** The fleet step fails only when the enabled repositories cannot be read. */
  datatype FleetError = RegistryUnavailable

  /**
    `scanAllRepositories`: one task per enabled repository, all settled, and
    one result per repository in registry order; no enabled repository gives
    an empty list. `settle` says how each repository's task settled.
  */
  function ScanAllRepositories(reg: Option<Registry>, settle: RepositoryRecord -> Settled): (r: Result<seq<ScanResult>, FleetError>)
    ensures reg.None? <==> r.Err?
    ensures reg.Some? ==> |r.value| == |Enabled(reg.value)|
    ensures reg.Some? ==> forall i :: 0 <= i < |r.value| ==>
      r.value[i] == SettledResult(Enabled(reg.value)[i], settle(Enabled(reg.value)[i]))
  {
    match reg
    case None => Err(RegistryUnavailable)
    case Some(all) =>
      var repos := Enabled(all);
      Ok(seq(|repos|, i requires 0 <= i < |repos| => SettledResult(repos[i], settle(repos[i]))))
  }

  /**
    The fleet scan as the source runs it: every enabled repository is scanned
    against the same registry and workspace, each with its own outside world.
  */
  function ScanFleet(ws: Workspace, reg: Option<Registry>, ioFor: string -> ScanIo): (r: Result<seq<ScanResult>, FleetError>)
    ensures reg.None? <==> r.Err?
    ensures reg.Some? ==> |r.value| == |Enabled(reg.value)|
    ensures reg.Some? ==> forall i :: 0 <= i < |r.value| ==> r.value[i].repository == Enabled(reg.value)[i].name
  {
    match reg
    case None => Err(RegistryUnavailable)
    case Some(all) =>
      ScanAllRepositories(reg, (x: RepositoryRecord) => Fulfilled(ScanRepository(ws, all, x.name, x.branch, ioFor(x.name)).result))
  }

  /**
    Each fleet result belongs to the enabled repository at the same position,
    is well formed, and is exactly what scanning that repository alone gives;
    one repository's failure does not touch another's result.
  */
  lemma FleetResultsPerRepository(ws: Workspace, all: Registry, ioFor: string -> ScanIo)
    ensures var r := ScanFleet(ws, Some(all), ioFor);
      && r.Ok? && |r.value| == |Enabled(all)|
      && forall i :: 0 <= i < |r.value| ==>
        var x := Enabled(all)[i];
        && r.value[i].repository == x.name
        && WellFormed(r.value[i])
        && r.value[i] == ScanRepository(ws, all, x.name, x.branch, ioFor(x.name)).result
  {
  }

  /** Rejected tasks are reported, not dropped: each becomes a failed result naming its repository. */
  lemma RejectedTasksReported(reg: Registry, settle: RepositoryRecord -> Settled, i: nat)
    requires i < |Enabled(reg)| && settle(Enabled(reg)[i]).Rejected?
    requires Enabled(reg)[i].name != ""
    ensures var r := ScanAllRepositories(Some(reg), settle).value[i];
      !r.success && r.repository == Enabled(reg)[i].name && r.error.Some? && r.error.value.TaskRejected?
  {
  }
}

=== FILE: snyk_types.dfy ===
/**
  The scanner's payload shapes: a vulnerability, one project's result, the
  severity counters, and the payload that is either one project result or a
  list of them.
*/
module SnykTypes {
  import opened Wrappers

  /** The four severity tiers the scanner reports, ordered low < medium < high < critical. */
  datatype Severity = Low | Medium | High | Critical {

    /** The tag the scanner writes for this tier. */
    function Label(): string {
      match this
      case Low => "low"
      case Medium => "medium"
      case High => "high"
      case Critical => "critical"
    }

    /** Position in the order low < medium < high < critical. */
    function Rank(): nat {
      match this
      case Low => 0
      case Medium => 1
      case High => 2
      case Critical => 3
    }
  }

  /** The labels of the typed severity union. */
  const SeverityLabels: set<string> := {"low", "medium", "high", "critical"}

  /** Reads a severity tag; only the four typed labels are recognised. */
  function ParseSeverity(tag: string): (r: Option<Severity>)
    ensures r.Some? <==> tag in SeverityLabels
    ensures r.Some? ==> r.value.Label() == tag
    ensures forall s: Severity :: s.Label() == tag ==> r == Some(s)
  {
    if tag == "low" then Some(Low)
    else if tag == "medium" then Some(Medium)
    else if tag == "high" then Some(High)
    else if tag == "critical" then Some(Critical)
    else None
  }

  /**
    One vulnerability as the scanner emits it. The severity is kept as the
    raw tag: the payload is untyped JSON, so a tag outside the typed union
    can arrive and must be representable.
  */
  datatype Vulnerability = Vulnerability(
    id: string,
    title: string,
    severity: string,
    moduleName: Option<string>,
    packageName: Option<string>,
    version: string,
    from: seq<string>)

  /**
    One scanned project. `vulnerabilities` and `dependencyCount` may be missing
    from the raw JSON. `error` is the scanner's own error message, present on a
    rejected run; the typed interface omits it but the scan step reads it.
  */
  datatype ProjectResult = ProjectResult(
    ok: bool,
    vulnerabilities: Option<seq<Vulnerability>>,
    dependencyCount: Option<int>,
    projectName: string,
    error: Option<string>)

  /** The counters of a summary. */
  datatype Summary = Summary(total: nat, critical: nat, high: nat, medium: nat, low: nat)

  /** The scanner writes one object for a single project and an array for several. */
  datatype Payload = Single(project: ProjectResult) | Many(projects: seq<ProjectResult>)
}

=== FILE: strings.dfy ===
/** String helpers with JavaScript's semantics: truthiness, `trim`, `endsWith` and `join`. */
module Strings {
  import opened Wrappers

  /** A string is truthy in JavaScript iff it is non-empty. */
  predicate Truthy(s: string) {
    s != ""
  }

  /** An optional string property is truthy iff it is present and non-empty. */
  predicate Present(o: Option<string>) {
    o.Some? && Truthy(o.value)
  }

  /** `a || b` on optional strings: the first operand when it is truthy, else the second. */
  function OrElse(a: Option<string>, b: Option<string>): (r: Option<string>)
    ensures Present(a) ==> r == a
    ensures !Present(a) ==> r == b
  {
    if Present(a) then a else b
  }

  /** The characters `String.prototype.trim` removes: WhiteSpace and LineTerminator of ECMAScript. */
  predicate IsSpace(c: char) {
    || c == '\t' || c == '\n' || c == '\U{B}' || c == '\U{C}' || c == '\r' || c == ' '
    || c == '\U{A0}' || c == '\U{1680}' || ('\U{2000}' <= c <= '\U{200A}')
    || c == '\U{2028}' || c == '\U{2029}' || c == '\U{202F}' || c == '\U{205F}'
    || c == '\U{3000}' || c == '\U{FEFF}'
  }

  /** The first index at or after `i` that does not hold a space (`|s|` if there is none). */
  function ContentStart(s: string, i: nat): (k: nat)
    requires i <= |s|
    ensures i <= k <= |s|
    ensures forall j :: i <= j < k ==> IsSpace(s[j])
    ensures k == |s| || !IsSpace(s[k])
    decreases |s| - i
  {
    if i < |s| && IsSpace(s[i]) then ContentStart(s, i + 1) else i
  }

  /** The last index at or before `j`, down to `lo`, that ends a run of spaces reaching `j`. */
  function ContentEnd(s: string, lo: nat, j: nat): (k: nat)
    requires lo <= j <= |s|
    ensures lo <= k <= j
    ensures forall m :: k <= m < j ==> IsSpace(s[m])
    ensures k == lo || !IsSpace(s[k - 1])
  {
    if lo < j && IsSpace(s[j - 1]) then ContentEnd(s, lo, j - 1) else j
  }

  /** `s.trim()`: the longest infix of `s` that neither starts nor ends with a space. */
  function Trim(s: string): (r: string)
    ensures var a := ContentStart(s, 0);
      && a + |r| <= |s| && r == s[a..a + |r|]
      && (forall i :: 0 <= i < a ==> IsSpace(s[i]))
      && (forall i :: a + |r| <= i < |s| ==> IsSpace(s[i]))
    ensures r == [] || (!IsSpace(r[0]) && !IsSpace(r[|r| - 1]))
  {
    var a := ContentStart(s, 0);
    var b := ContentEnd(s, a, |s|);
    assert b > a ==> s[a..b][0] == s[a] && s[a..b][b - a - 1] == s[b - 1];
    s[a..b]
  }

  /** A string with no leading and no trailing space is its own trim. */
  lemma TrimOfTrimmed(s: string)
    requires s == [] || (!IsSpace(s[0]) && !IsSpace(s[|s| - 1]))
    ensures Trim(s) == s
  {
  }

  /** Trimming is idempotent: a stored (already trimmed) value is unchanged by a second trim. */
  lemma TrimIdempotent(s: string)
    ensures Trim(Trim(s)) == Trim(s)
  {
    TrimOfTrimmed(Trim(s));
  }

  /** `s.endsWith(suffix)`. */
  predicate EndsWith(s: string, suffix: string) {
    |suffix| <= |s| && s[|s| - |suffix|..] == suffix
  }

  /** `xs.join(sep)`: the elements of `xs` separated by `sep`. */
  function Join(xs: seq<string>, sep: string): string {
    if |xs| == 0 then ""
    else if |xs| == 1 then xs[0]
    else xs[0] + sep + Join(xs[1..], sep)
  }
}

=== FILE: wrappers.dfy ===
/** Failure-carrying values shared by every module of the model. */
module Wrappers {

  /** A value that may be absent (an optional property, `undefined`, `null`). */
  datatype Option<+T> = None | Some(value: T) {

    /** The value, or `default` when absent. */
    function GetOr(default: T): T {
      match this
      case Some(v) => v
      case None => default
    }
  }

  /** The outcome of an operation that either yields a value or throws an error. */
  datatype Result<+T, +E> = Ok(value: T) | Err(error: E)
}
